=== FILE: README.md ===
# Remote configuration of a multi-cluster ledger CLI, in Dafny

This project models the remote-configuration subsystem of a CLI that deploys a distributed-ledger network across several Kubernetes clusters. It also models two small pieces of its Helm integration.

**Remote configuration.** Each deployment has one envelope document. It records:

- the cluster registry;
- the components directory (consensus nodes, relays, envoy proxies);
- version metadata;
- a command history.

The document is stored as a ConfigMap in every cluster of the deployment. `RemoteConfigManager` holds at most one loaded envelope per process. Within the code modelled here, it is the only code that reads, creates or replaces those ConfigMaps.

Modules, one per source file:

- `Components` (`components.dfy`) models the consensus-node, relay and envoy-proxy component classes. They form one tagged union. There is a validation function, a constructor per class that throws on the first failed check, and `toObject`/`fromObject`.
- `RemoteConfig` (`remote_config.dfy`) models the envelope, its cluster registry and components directory, and the pure parts of the manager:
  - `compare`;
  - `populateVersionsInMetadata`;
  - the audit line that `loadAndValidate` appends.
- `RemoteConfigManager` (`remote_config_manager.dfy`) models the manager.
  - The manager's single mutable field becomes a `State = Option<Envelope>` that each operation takes and returns.
  - Everything the class obtains from injected collaborators is a field of `World`: the resolved namespace and contexts, the local configuration, the store's answers, the validator's verdict, the flags ledger and the version defaults.
  - Every operation returns a `Step`. A `Step` holds the new state, the value or error, and an ordered event log. The log records ConfigMap reads, creates and replaces, and each call of a `modify` callback.
- `ChartInstallRequest` (`chart_install_request.dfy`) models the constructor checks and the calls that `apply` makes on the Helm execution builder. The builder is the ordered list of those calls.
- `HelmDependencyManager` (`helm_dependency_manager.dfy`) models the constructor:
  - normalising the platform and architecture;
  - naming the artifact;
  - building the download and checksum URLs.

  It also models how `checkVersion` reads the version out of the `helm version --short` output.
- `JsText` and `Wrappers` are shared helpers:
  - JavaScript values and truthiness;
  - `String.prototype.trim` (ECMAScript whitespace and line terminators);
  - `Array.prototype.join`;
  - `Option`/`Result`/`Outcome`.

Behaviours of the code that the model keeps deliberately:

- `createConfigMap` writes into the namespace that `getNamespace()` resolves. It does not use the `namespace` argument of `create`. The model records the create in `World.namespace` for that reason.
- `create` keeps the new envelope loaded even when the ConfigMap create is rejected, because the field is assigned before the write.
- When an initial consensus node fails its constructor's validation (an empty alias, cluster reference or namespace), `create` throws inside `initializeWithNodes`. The envelope is not yet assigned, so the previous state survives and nothing is written.
- `replaceConfigMap` accepts an empty cluster list. It then succeeds without writing anything (`SaveToNoClustersWritesNothing`).
- `populateVersionsInMetadata` compares `argv._[1]` with `!==`. A bare `node` command with no subcommand therefore still writes the default release tag (`BareNodeCommandDefaultsReleaseTag`).
- `get` passes `false` as `skipConsensusNodesValidation`, so it runs the consensus-node checks. `loadAndValidate` skips them by default. The model follows the code: `World.validator`'s flag is that skip flag.
- The helm constructor normalises the raw constructor parameters. A platform missing from the extension table gets the extension `undefined` because of `util.format`.

## Model

| member | source | states |
|---|---|---|
| Components.Validate | src/core/config/remote/components/consensus-node-component.ts:49-63 | The base check runs first and decides the error when it fails. Validation passes exactly when the component meets `Valid`. `Valid` is stated separately: the assumed base check, a recognised state and a number ≥ 0 as node id, or every alias a non-empty string. |
| Components.FirstInvalidAlias | src/core/config/remote/components/relay-component.ts:39-43 | Finds the first alias the relay's loop rejects: every earlier alias is a non-empty string and the one found is not. |
| Components.Construct | src/core/config/remote/components/consensus-node-component.ts:29-39 | Construction succeeds exactly on valid records and returns the record unchanged. Otherwise it throws the error `validate()` reports. |
| Components.NewConsensusNode | src/core/config/remote/components/consensus-node-component.ts:29-62 | A consensus node is always typed `ConsensusNode`. It is built exactly when name, cluster and namespace are non-empty, the state is recognised and the node id is a number ≥ 0. Otherwise the error follows source order: base, then "Invalid consensus node state", then non-number id, then negative id. |
| Components.NewRelay | src/core/config/remote/components/relay-component.ts:18-26 | A relay is always typed `Relay`. An omitted alias list becomes `[]`, and `[]` is valid. A given list is kept as is. With valid base fields, construction succeeds exactly when every alias is a non-empty string. |
| Components.NewEnvoyProxy | src/core/config/remote/components/envoy-proxy-component.ts:8-12 | An envoy proxy is always typed `EnvoyProxy` and carries only the base fields. Invalid base fields are rejected. |
| Components.ToObject | src/core/config/remote/components/consensus-node-component.ts:65-71 | The object carries the base fields and the component's type. A consensus node's object carries its state and node id unchanged. A relay's object carries its alias list unchanged and in order. An envoy proxy's object carries only the base fields. |
| Components.ConsensusNodeFromObject | src/core/config/remote/components/consensus-node-component.ts:44-47 | Takes name, cluster, namespace, state and nodeId from the object. It succeeds exactly when those make a valid consensus node. |
| Components.RelayFromObject | src/core/config/remote/components/relay-component.ts:31-34 | Takes the base fields and the alias list from the object, order included. An omitted list becomes `[]`. It succeeds exactly when the resulting relay is valid. |
| Components.EnvoyProxyFromObject | src/core/config/remote/components/envoy-proxy-component.ts:17-19 | Copies exactly name, cluster and namespace. It succeeds exactly when all three are non-empty. |
| Components.FromObject | src/core/config/remote/components/consensus-node-component.ts:44-47 | Whatever the reader for the object's shape builds is valid. It has that class's own type and the object's name, cluster and namespace. |
| Components.RoundTrip | src/core/config/remote/components/consensus-node-component.ts:44-71 | Reading back the object of a valid component gives that component in every field, alias order included. |
| Components.RoundTripRejectsInvalid | src/core/config/remote/components/relay-component.ts:31-43 | Reading back the object of an invalid component throws. |
| Components.ObjectRoundTrip | src/core/config/remote/components/relay-component.ts:31-51 | Writing back an object the reader accepted reproduces it. The only differences are the reassigned type and an omitted alias list, which comes back as `[]`. |
| Components.FromObjectIgnoresType | src/core/config/remote/components/consensus-node-component.ts:36-47 | The reader ignores the object's type tag. A component it builds always has a recognised type. |
| Components.EnvoyProxyFromAnyShape | src/core/config/remote/components/envoy-proxy-component.ts:17-19 | The envoy-proxy reader builds the same proxy from any object shape with the same base fields, whatever its type. |
| Components.NodeIdBoundary | src/core/config/remote/components/consensus-node-component.ts:60-62 | Node id 0 is accepted. Node id -1 is rejected as negative. |
| Components.EmptyAliasRejected | src/core/config/remote/components/relay-component.ts:39-43 | Any rejected alias anywhere in the list makes construction throw "Invalid consensus node alias", and the reported alias is the first rejected one in the list, where the loop throws. A rejected alias is the empty string, `null`, `undefined`, `0`, `false` or any non-string. |
| RemoteConfig.ClusterKeys | src/core/config/remote/remote-config-manager.ts:211-212 | The registry's keys, in order, one per entry. |
| RemoteConfig.LookupCluster | src/core/config/remote/remote-config-manager.ts:485 | `clusters[ref]` finds an entry exactly when `ref` is a key, and the entry found is registered under it. |
| RemoteConfig.KeysAgreeFrom | src/core/config/remote/remote-config-manager.ts:217-221 | The position-by-position loop finds no difference exactly when the two key lists agree from that position on. |
| RemoteConfig.Compare | src/core/config/remote/remote-config-manager.ts:209-224 | `compare` is true exactly when the two ordered cluster-key lists are equal. |
| RemoteConfig.CompareIsShallow | src/core/config/remote/remote-config-manager.ts:209-224 | Envelopes with the same cluster keys compare equal even when their components, metadata or history differ. |
| RemoteConfig.CompareIsOrderSensitive | src/core/config/remote/remote-config-manager.ts:217-221 | Swapping two distinct keys makes `compare` false. |
| RemoteConfig.CompareIsEquivalence | src/core/config/remote/remote-config-manager.ts:209-224 | `compare` is reflexive, symmetric and transitive. |
| RemoteConfig.InitializeEmpty | src/core/config/remote/remote-config-manager.ts:330 | The empty directory has no consensus nodes, relays or proxies. |
| RemoteConfig.NodesFor | src/core/config/remote/remote-config-manager.ts:141 | Node `i` of the first `n` is named after alias `i`, is on the given cluster and namespace, and has node id `i`. |
| RemoteConfig.BuildNodes | src/core/config/remote/remote-config-manager.ts:141 | Building the nodes for the first `n` aliases through the consensus-node constructor succeeds exactly when those nodes are all valid, and then yields the `NodesFor` nodes. A failure carries the first node's constructor error. |
| RemoteConfig.InitializeWithNodes | src/core/config/remote/remote-config-manager.ts:141 | Succeeds exactly when every initial node passes validation: no aliases, or non-empty cluster, namespace and aliases with a recognised state. It then builds one valid consensus node per alias, in alias order, with ids 0..n-1 on the one cluster, and no relays or proxies. Otherwise it throws the first node's constructor error. |
| RemoteConfig.EmptyInitialAliasThrows | src/core/config/remote/remote-config-manager.ts:141 | An empty alias anywhere in the list makes `initializeWithNodes` throw. With a recognised state the error is the base-component one. |
| RemoteConfig.InitialNodeIdsDistinct | src/core/config/remote/remote-config-manager.ts:141 | No two initial consensus nodes share a node id. |
| RemoteConfig.HistoryEntryShape | src/core/config/remote/remote-config-manager.ts:259-264 | The trimmed audit line always starts with `Executed by <user>:`. It has no leading or trailing whitespace. |
| RemoteConfig.AddCommandToHistory | src/core/config/remote/remote-config-manager.ts:262-264 | Appends exactly one entry at the most-recent end and records it as the last command. Nothing else changes. |
| RemoteConfig.ResolveVersion | src/core/config/remote/remote-config-manager.ts:287-291 | A set flag value wins. Otherwise the default is written only when the command uses the flag. Otherwise the field is unchanged. |
| RemoteConfig.PopulateVersionsInMetadata | src/core/config/remote/remote-config-manager.ts:273-323 | Applies that rule to each of the five version fields: the chart version and release tag with their command tables, and the mirror-node, explorer and relay versions with `<x> deploy`. Every non-version field is unchanged. |
| RemoteConfig.PopulateIsIdempotent | src/core/config/remote/remote-config-manager.ts:273-323 | Recording the versions twice for one command gives the same metadata as recording them once. |
| RemoteConfig.SoloChartPairsDefaultReleaseTag | src/core/config/remote/remote-config-manager.ts:277-295 | Every command that defaults the chart version also defaults the release tag, except `network refresh`. `network refresh` defaults the chart version only. |
| RemoteConfig.CommandTables | src/core/config/remote/remote-config-manager.ts:277-295 | `network deploy` and `network refresh` default the chart version, and so do the six `node` add, update and delete subcommands. `network deploy` defaults the release tag, and so does every `node` subcommand except keys, logs and states. No other command defaults either. |
| RemoteConfig.BareNodeCommandDefaultsReleaseTag | src/core/config/remote/remote-config-manager.ts:293-301 | `node` with no subcommand and no release-tag flag writes the default release tag. |
| RemoteConfigManager.LoadedAfter | src/core/config/remote/remote-config-manager.ts:334-336 | `isLoaded` after a first `load` is exactly whether it succeeded. It is false after `unload`, and `save` does not change it. When already loaded, `load` keeps it and does not read. |
| RemoteConfigManager.Unload | src/core/config/remote/remote-config-manager.ts:205-207 | After `unload` nothing is loaded and the store is not touched. |
| RemoteConfigManager.ComponentsView | src/core/config/remote/remote-config-manager.ts:73-75 | The `components` getter returns the loaded directory. It fails exactly when nothing is loaded. |
| RemoteConfigManager.ClustersView | src/core/config/remote/remote-config-manager.ts:80-82 | The `clusters` getter returns the loaded registry. It fails exactly when nothing is loaded. |
| RemoteConfigManager.DeploymentContexts | src/core/config/remote/remote-config-manager.ts:394-408 | Succeeds exactly when the deployment flag is set and non-empty, the deployment is in local config and it lists its clusters. An unset or empty flag fails as not set. On success there is one context per cluster of the deployment in local config, in list order, each mapped through `clusterRefs`. |
| RemoteConfigManager.FanOut | src/core/config/remote/remote-config-manager.ts:410-412 | One replace per context, in list order, each carrying the whole envelope. |
| RemoteConfigManager.Save | src/core/config/remote/remote-config-manager.ts:152-158 | With nothing loaded, the save fails and writes nothing. Otherwise it writes once per deployment context, in order. It fails exactly when some write is rejected, with a write-rejected error, and earlier writes are not undone. The state never changes. |
| RemoteConfigManager.SaveToNoClustersWritesNothing | src/core/config/remote/remote-config-manager.ts:400-412 | A deployment with an empty cluster list saves successfully with no writes. |
| RemoteConfigManager.Modify | src/core/config/remote/remote-config-manager.ts:93-103 | With nothing loaded, `modify` fails with no event: no callback call and no write. Otherwise the callback runs exactly once, first. Then comes exactly one save of the envelope as the callback left it, unless the callback threw. |
| RemoteConfigManager.ModifyWithNoChangeStillSaves | src/core/config/remote/remote-config-manager.ts:98-102 | A callback that changes nothing still writes the envelope to every context. |
| RemoteConfigManager.DeleteComponents | src/core/config/remote/remote-config-manager.ts:328-332 | Empties the components directory and changes nothing else in the envelope. Then, as `modify` does, it runs the callback once and saves the emptied envelope, with exactly the save's writes and the save's outcome. With nothing loaded it fails without writing. |
| RemoteConfigManager.Load | src/core/config/remote/remote-config-manager.ts:166-177 | With a config already loaded, `load` is a no-op with no read. Otherwise it reads once. A found document becomes the state. Any read or parse failure leaves nothing loaded and is rethrown as a load failure carrying its cause. |
| RemoteConfigManager.LoadIsIdempotent | src/core/config/remote/remote-config-manager.ts:166-169 | A second `load` after a successful one does nothing at all. |
| RemoteConfigManager.Get | src/core/config/remote/remote-config-manager.ts:183-202 | `get` loads if needed and propagates a failed load unchanged. It then validates with `skipConsensusNodesValidation = false`, so the consensus-node checks run too. A passing validation returns exactly the loaded envelope, and a failed one is fatal. `get` never writes. |
| RemoteConfigManager.CreateThenGet | src/core/config/remote/remote-config-manager.ts:110-146 | After a `create` whose initial nodes are valid, `get` does not read the store again. When validation passes it returns the created envelope, and any envelope it returns has exactly the one cluster key. |
| RemoteConfigManager.NewEnvelope | src/core/config/remote/remote-config-manager.ts:121-143 | Building the envelope fails exactly when `initializeWithNodes` throws, with that node error. Otherwise the envelope has exactly one cluster key, `clusterReference`, holding the given entry. Its history is `[argv._ joined by ' ']`, and its last command is the same string. Its components are the initial nodes and its flags the initialised ledger. Its metadata is stamped with the user and tool version. |
| RemoteConfigManager.Create | src/core/config/remote/remote-config-manager.ts:110-146 | When the initial nodes are valid, `create` holds exactly the `NewEnvelope` envelope and writes it once, as a create, to the given context. When a node is invalid it throws that node's error, keeps the previous state and writes nothing. It succeeds exactly when the nodes are valid and the create is accepted. |
| RemoteConfigManager.CreateRejectsEmptyAlias | src/core/config/remote/remote-config-manager.ts:141-145 | A `create` with an empty node alias fails with a node error, keeps the previous state and issues no event. |
| RemoteConfigManager.CreateAssignsSequentialIds | src/core/config/remote/remote-config-manager.ts:141 | When the initial nodes are valid, the consensus nodes of a created deployment have ids 0..n-1 in alias order, on the given cluster and namespace. |
| RemoteConfigManager.Audited | src/core/config/remote/remote-config-manager.ts:259-268 | After validation, the history gains exactly the one trimmed audit line. The versions are recorded, the flags ledger is the one `handleFlags` returns for the old ledger and `argv`, and the clusters and components are unchanged. |
| RemoteConfigManager.LoadAndValidate | src/core/config/remote/remote-config-manager.ts:236-271 | A failed load stops `loadAndValidate`. With `validate = false` it stops right after the load. A failed validation writes nothing. Otherwise the saved state is exactly the `Audited` envelope: one audit line appended, versions and flags recorded, clusters and components unchanged. Its events are the load's followed by that save's, and its outcome is the save's. |
| RemoteConfigManager.LoadWithoutValidationNeverWrites | src/core/config/remote/remote-config-manager.ts:247-249 | With `validate = false`, `loadAndValidate` issues no create or replace and leaves the history as loaded. |
| RemoteConfigManager.JoinNodes | src/core/config/remote/remote-config-manager.ts:484-507 | Builds one node view per component, in order, with the registered cluster's DNS fields and the context from local config. It fails exactly when some node's cluster is not registered. |
| RemoteConfigManager.GetConsensusNodes | src/core/config/remote/remote-config-manager.ts:477-511 | With nothing loaded, `getConsensusNodes` throws. Otherwise it gives one view per consensus node in directory order. Each view has the node's name, node id, namespace and cluster, its cluster's context, the registered cluster's DNS base domain and pattern, and the fully qualified name rendered from those. |
| RemoteConfigManager.UnloadThenNoNodes | src/core/config/remote/remote-config-manager.ts:477-480 | After `unload`, `isLoaded` is false and `getConsensusNodes` throws "not loaded". |
| RemoteConfigManager.FirstIndex | src/core/config/remote/remote-config-manager.ts:518 | Finds the position of an element's first occurrence. |
| RemoteConfigManager.Distinct | src/core/config/remote/remote-config-manager.ts:518 | `[...new Set(xs)]` holds each element of `xs` exactly once, in order of first occurrence. |
| RemoteConfigManager.GetContexts | src/core/config/remote/remote-config-manager.ts:517-519 | `getContexts` gives the distinct contexts of the consensus nodes, with no repeats and no others, ordered by first appearance among the nodes. |
| RemoteConfigManager.ClusterContextMap | src/core/config/remote/remote-config-manager.ts:527-533 | The `Map.set` loop has exactly the nodes' clusters as keys. Each key is mapped to the context of the last node on that cluster. |
| RemoteConfigManager.GetClusterRefs | src/core/config/remote/remote-config-manager.ts:525-534 | `getClusterRefs` maps exactly the clusters that host a consensus node, each to its context in local config. |
| JsText.TrimStart | src/integration/helm/request/chart/chart-install-request.ts:28 | Returns the longest suffix that does not start with whitespace. |
| JsText.TrimEnd | src/integration/helm/request/chart/chart-install-request.ts:28 | Returns the longest prefix that does not end with whitespace. |
| JsText.Trim | src/integration/helm/request/chart/chart-install-request.ts:28 | `trim()` neither starts nor ends with whitespace, and is never longer than its input. |
| JsText.TrimSlice | src/integration/helm/request/chart/chart-install-request.ts:28 | `trim()` is a contiguous slice of its input with only whitespace before and after it. |
| JsText.TrimEmptyIffBlank | src/integration/helm/request/chart/chart-install-request.ts:28-30 | `s.trim() === ''` exactly when every character of `s` is whitespace. |
| JsText.TrimKeepsPrefix | src/core/config/remote/remote-config-manager.ts:263 | Trimming never cuts into a leading part that starts and ends with non-whitespace. |
| JsText.TrimEndKeeps | src/core/config/remote/remote-config-manager.ts:263 | Trailing trim keeps every character up to the last non-whitespace one. |
| JsText.Join | src/core/config/remote/remote-config-manager.ts:134 | `join(sep)` has the total length of the parts plus one separator per neighbouring pair. It starts with the first part, followed by the separator when there are two or more parts. It is `""` for no parts and the part itself for one. |
| JsText.JoinAppend | src/core/config/remote/remote-config-manager.ts:134 | Joining one more part appends the separator and that part. So every part appears, in order, separated by `sep`. |
| ChartInstallRequest.NewRequest | src/integration/helm/request/chart/chart-install-request.ts:20-37 | A request is built exactly when the release name is given and not blank, a chart is given and options are not null. An omitted options argument takes the default options. The errors come in source order: null or empty name, blank name, missing chart. |
| ChartInstallRequest.WhitespaceNameIsBlank | src/integration/helm/request/chart/chart-install-request.ts:28-30 | A whitespace-only release name is rejected as blank. |
| ChartInstallRequest.ChartName | src/integration/helm/request/chart/chart-install-request.ts:43 | The chart name is unqualified exactly when the options name a non-empty repository. Otherwise it is qualified. |
| ChartInstallRequest.Apply | src/integration/helm/request/chart/chart-install-request.ts:39-46 | `apply` keeps earlier builder calls. It then emits the `install` subcommand, then the options' calls, then the release name, then the chart name. |
| ChartInstallRequest.ApplyPositionals | src/integration/helm/request/chart/chart-install-request.ts:45 | When the options add no positionals, the positionals `apply` adds are exactly `[releaseName, chartName]`. |
| ChartInstallRequest.PositionalsAppend | src/integration/helm/request/chart/chart-install-request.ts:45 | The positionals of two call lists joined together are the first list's followed by the second's. |
| ChartInstallRequest.NoPositionals | src/integration/helm/request/chart/chart-install-request.ts:41 | A call list with no positional call contributes no positionals. |
| HelmDependencyManager.NormalisePlatform | src/core/dependency-managers/helm-dependency-manager.ts:67 | `win32` becomes `windows`, and every other platform is unchanged. The result is never `win32`. |
| HelmDependencyManager.NormaliseArch | src/core/dependency-managers/helm-dependency-manager.ts:68 | `x64` and `x86-64` become `amd64`, and every other architecture is unchanged. |
| HelmDependencyManager.NormaliseIdempotent | src/core/dependency-managers/helm-dependency-manager.ts:67-68 | Normalising twice is the same as normalising once. |
| HelmDependencyManager.ArtifactExtension | src/core/dependency-managers/helm-dependency-manager.ts:24-27 | Gives `tar.gz` for darwin and linux and `zip` for windows. Every other platform has no entry. |
| HelmDependencyManager.FormatString | src/core/dependency-managers/helm-dependency-manager.ts:71-78 | `util.format('%s', x)` gives the string itself, or `undefined` for a missing value. |
| HelmDependencyManager.ArtifactName | src/core/dependency-managers/helm-dependency-manager.ts:71-78 | The artifact name starts with `helm-<version>-` and ends with `.` plus the platform's extension. For a platform missing from the table, it ends with `.undefined`. |
| HelmDependencyManager.NewManager | src/core/dependency-managers/helm-dependency-manager.ts:59-80 | A missing or empty installation directory throws `MissingArgumentError`. Otherwise the artifact is `helm-<version>-<platform>-<arch>.<ext>` over the normalised names. `helmURL` is the base URL, `/` and the artifact, and `checksumURL` is `helmURL` plus `.sha256sum`. |
| HelmDependencyManager.ArtifactKinds | src/core/dependency-managers/helm-dependency-manager.ts:67-78 | On `win32` the artifact is the windows `.zip`. On linux and darwin it is the `.tar.gz`. |
| HelmDependencyManager.UnknownPlatformExtension | src/core/dependency-managers/helm-dependency-manager.ts:71-78 | A platform outside the table gets the extension `undefined`. |
| HelmDependencyManager.ChecksumNamesSameArtifact | src/core/dependency-managers/helm-dependency-manager.ts:79-80 | The checksum URL extends the download URL, and the download URL starts with `https://get.helm.sh/`. |
| HelmDependencyManager.BeforeFirstPlus | src/core/dependency-managers/helm-dependency-manager.ts:139 | Returns the prefix of the line before its first `+`, or the whole line when there is none. |
| HelmDependencyManager.InstalledVersion | src/core/dependency-managers/helm-dependency-manager.ts:138-139 | The version is read from the first output line. Output with no lines throws. |
| HelmDependencyManager.VersionDropsBuildMetadata | src/core/dependency-managers/helm-dependency-manager.ts:139 | For `<version>+<metadata>` with no `+` in the version, the version read is exactly `<version>`. |
| HelmDependencyManager.BeforeFirstPlusStopsAt | src/core/dependency-managers/helm-dependency-manager.ts:139 | The prefix ends exactly at the first `+`. |

## Left out

- The base component class, the component-type and consensus-node-state enumerations, and the components data wrapper are not part of this model.
  - Base validation is assumed to be: non-empty name, cluster and namespace, and a recognised type.
  - The enumerations are finite datatypes with an unrecognised escape value.
  - `initializeWithNodes` is assumed to build one consensus node per alias, with ids 0..n-1 in alias order on the given cluster and namespace, and no relays or proxies, each through the consensus-node constructor, so the first invalid node throws. The initial node state is an input.
- `addCommandToHistory` lives in the envelope wrapper, which is not part of this model. It is modelled as an append plus setting `lastExecutedCommand`. Any cap on the history length in that class is not modelled.
- Kubernetes I/O is an abstract event log plus the store answers in `World`. This covers ConfigMap read, create and replace, `getConfigMap`'s error wrapping, and namespace and context resolution (`getNamespace`, `getContextForFirstCluster`).
- The concurrent multi-cluster write (`Promise.all`) is modelled as one replace per context in list order. The failure is aggregate. Which rejection is reported first, and timing, are not modelled.
- `setDefaultNamespaceAndDeploymentIfNotSet` and `setDefaultContextIfNotSet` are not modelled. They prompt on a TTY and mutate `argv` and the config manager. `loadAndValidate` is modelled from its `load()` onwards.
- `RemoteConfigValidator`, `CommonFlagsDataWrapper.initialize`/`handleFlags`, YAML serialisation, `flags.stringifyArgv`, `new Date()`, the user identity, `getSoloVersion` and `Templates.renderConsensusNodeFullyQualifiedDomainName` are opaque inputs. They are the `World` fields and the `DomainNameRenderer` parameter. A throw inside `handleFlags` is not modelled.
- RemoteConfigManager.Get: `get()` returns the live loaded object (`return this.remoteConfig`), not a copy. A caller that mutates it changes the loaded state without `modify`, and the next `save` writes the change. The model returns an immutable value, so that aliasing is not modelled.
- The clone getters copy their values. Dafny values are immutable, so "the copy is independent of the manager's state" holds by construction and is not stated separately.
- `currentCluster` is a plain pass-through to the Kubernetes client and is not modelled.
- JavaScript numbers are modelled as integers. A `NaN` or fractional `nodeId` is not modelled; it would pass the source's `typeof` and `< 0` checks. `null` as a relay alias list (a `TypeError` in the loop) is not modelled either.
- `Object.keys` orders integer-like keys first. The registry is modelled as a list already in `Object.keys` order.
- The cluster registry and the components directory are lists. Unlike the JavaScript records keyed by cluster reference or component name, they admit duplicate keys. The operations modelled here do not depend on keys being unique, and no uniqueness invariant is stated.
- `getClusterRefs` returns an insertion-ordered `Map`. The model returns an unordered `map`, so the iteration order of the result is not modelled.
- `ChartInstallRequest`: `Chart.qualified()`/`unqualified()`, `InstallChartOptions.apply` and the builder's assembly of the final command line belong to classes that are not part of this model. They are carried as data and as a list of builder calls.
- `HelmDependencyManager`: not modelled are the `patchInject` fallbacks, `helmPath`/`Templates.installationPath`, download, unzip/untar, the file-system copy, `uninstall`, shell execution and the `semver.gte` comparison in `checkVersion`. Only the version-string split is modelled.
- Leases, services, namespaces, cluster checks, pod references, releases and the CLI wiring are not modelled. They are interfaces without behaviour or thin wrappers over Kubernetes calls.

=== FILE: chart_install_request.dfy ===
/**
 * `ChartInstallRequest`: a validated request to install a Helm chart, and
 * the calls it makes on a Helm execution builder.
 *
 * The builder is modelled as the ordered list of calls made on it; how the
 * builder turns them into a command line is not part of this model. The
 * chart's two renderings and the options' own builder calls come from
 * classes that are not part of this model either, so they are carried as
 * data.
 */
module ChartInstallRequest {
  import opened Wrappers
  import opened JsText

  /** A JavaScript argument: omitted (`undefined`, so a default applies), `null`, or a value. */
  datatype Arg<+T> = Omitted | Null | Given(value: T)

  /** A chart with its `qualified()` and `unqualified()` names. */
  datatype Chart = Chart(qualified: string, unqualified: string)

  /** One call made on the execution builder. */
  datatype BuilderCall =
    | Subcommand(word: string)
    | OptionCall(text: string)
    | Positional(value: string)

  /** Install options: the repository, if any, and the calls `options.apply(builder)` makes. */
  datatype InstallChartOptions = InstallChartOptions(repo: Option<string>, calls: seq<BuilderCall>)

  datatype Request = Request(releaseName: string, chart: Chart, options: InstallChartOptions)

  datatype RequestError =
    | ReleaseNameNull
    | ReleaseNameBlank
    | ChartNull
    | OptionsNull

  /** `!releaseName`: omitted, `null` and the empty string are all rejected by the first check. */
  predicate MissingName(releaseName: Arg<string>)
  {
    !releaseName.Given? || releaseName.value == ""
  }

  /**
   * The constructor. The checks run in source order: release name present,
   * release name not blank, chart present, options present; an omitted
   * `options` takes the builder's default options.
   */
  function NewRequest(releaseName: Arg<string>, chart: Arg<Chart>, options: Arg<InstallChartOptions>,
                      defaultOptions: InstallChartOptions): (r: Result<Request, RequestError>)
    ensures r.Success? <==>
      && releaseName.Given? && !AllWhitespace(releaseName.value)
      && chart.Given? && !options.Null?
    ensures MissingName(releaseName) ==> r == Failure(ReleaseNameNull)
    ensures !MissingName(releaseName) && AllWhitespace(releaseName.value) ==> r == Failure(ReleaseNameBlank)
    ensures !MissingName(releaseName) && !AllWhitespace(releaseName.value) && !chart.Given? ==> r == Failure(ChartNull)
    ensures r.Success? ==>
      && r.value.releaseName == releaseName.value && r.value.chart == chart.value
      && r.value.options == (if options.Given? then options.value else defaultOptions)
  {
    if MissingName(releaseName) then Failure(ReleaseNameNull)
    else if Trim(releaseName.value) == "" then
      TrimEmptyIffBlank(releaseName.value);
      Failure(ReleaseNameBlank)
    else if !chart.Given? then
      TrimEmptyIffBlank(releaseName.value);
      Failure(ChartNull)
    else if options.Null? then
      TrimEmptyIffBlank(releaseName.value);
      Failure(OptionsNull)
    else
      TrimEmptyIffBlank(releaseName.value);
      Success(Request(releaseName.value, chart.value, if options.Given? then options.value else defaultOptions))
  }

  /** A release name of spaces and tabs is rejected as blank, not as missing. */
  lemma WhitespaceNameIsBlank(chart: Chart, options: InstallChartOptions)
    ensures NewRequest(Given(" \t "), Given(chart), Given(options), options) == Failure(ReleaseNameBlank)
  {
    assert AllWhitespace(" \t ");
  }

  /** The chart reference used: the unqualified name exactly when the options name a repository. */
  function ChartName(req: Request): (name: string)
    ensures (req.options.repo.Some? && req.options.repo.value != "") ==> name == req.chart.unqualified
    ensures !(req.options.repo.Some? && req.options.repo.value != "") ==> name == req.chart.qualified
  {
    if req.options.repo.Some? && req.options.repo.value != "" then req.chart.unqualified else req.chart.qualified
  }

  /** `apply(builder)`: the subcommand, then the options' calls, then the release name and the chart as positionals. */
  function Apply(req: Request, builder: seq<BuilderCall>): (r: seq<BuilderCall>)
    ensures |r| == |builder| + 1 + |req.options.calls| + 2
    ensures r[..|builder|] == builder
    ensures r[|builder|] == Subcommand("install")
    ensures r[|builder| + 1..|r| - 2] == req.options.calls
    ensures r[|r| - 2] == Positional(req.releaseName)
    ensures r[|r| - 1] == Positional(ChartName(req))
  {
    builder + [Subcommand("install")] + req.options.calls + [Positional(req.releaseName), Positional(ChartName(req))]
  }

  /** The positionals `apply` adds are exactly the release name followed by the chart, whatever the options add. */
  lemma ApplyPositionals(req: Request, builder: seq<BuilderCall>)
    requires forall i :: 0 <= i < |req.options.calls| ==> !req.options.calls[i].Positional?
    ensures var added := Apply(req, builder)[|builder|..];
      Positionals(added) == [req.releaseName, ChartName(req)]
  {
    var added := Apply(req, builder)[|builder|..];
    assert added == [Subcommand("install")] + req.options.calls + [Positional(req.releaseName), Positional(ChartName(req))];
    PositionalsAppend([Subcommand("install")] + req.options.calls, [Positional(req.releaseName), Positional(ChartName(req))]);
    PositionalsAppend([Subcommand("install")], req.options.calls);
    NoPositionals(req.options.calls);
    assert Positionals([Positional(req.releaseName), Positional(ChartName(req))])
        == Positionals([Positional(req.releaseName)]) + [ChartName(req)];
  }

  /** The positional arguments among builder calls, in order. */
  function Positionals(calls: seq<BuilderCall>): seq<string>
  {
    if |calls| == 0 then []
    else Positionals(calls[..|calls| - 1]) + (if calls[|calls| - 1].Positional? then [calls[|calls| - 1].value] else [])
  }

  lemma {:induction false} PositionalsAppend(a: seq<BuilderCall>, b: seq<BuilderCall>)
    ensures Positionals(a + b) == Positionals(a) + Positionals(b)
    decreases |b|
  {
    if |b| == 0 {
      assert a + b == a;
    } else {
      assert (a + b)[..|a + b| - 1] == a + b[..|b| - 1];
      PositionalsAppend(a, b[..|b| - 1]);
    }
  }

  lemma {:induction false} NoPositionals(calls: seq<BuilderCall>)
    requires forall i :: 0 <= i < |calls| ==> !calls[i].Positional?
    ensures Positionals(calls) == []
    decreases |calls|
  {
    if |calls| > 0 {
      NoPositionals(calls[..|calls| - 1]);
    }
  }
}

=== FILE: components.dfy ===
/**
 * The deployable units recorded in the remote configuration: consensus nodes,
 * relays and envoy proxies. Each is an immutable record that validates itself
 * when it is built and serialises to a plain object.
 *
 * The three classes share a base class (not part of this model) that stores
 * the component type, name, cluster reference and namespace. Here the
 * component is a tagged union whose tag is the type, so a component always
 * carries the type its constructor assigned. Fields that the JavaScript code
 * checks with `typeof` are kept as raw `JsValue`s, exactly as the class stores
 * them.
 */
module Components {
  import opened Wrappers
  import opened JsText

  /** The component-type enumeration, with an escape for a value it does not list. */
  datatype ComponentType =
    | ConsensusNodeType
    | RelayType
    | EnvoyProxyType
    | UnrecognisedType(raw: string)

  /** The consensus-node lifecycle enumeration, with an escape for a value it does not list. */
  datatype NodeState =
    | Requested
    | Initialized
    | Started
    | Frozen
    | Stopped
    | UnrecognisedState(raw: string)

  /** The fields every component inherits from the base class. */
  datatype Base = Base(name: string, cluster: string, namespace: string)

  datatype Component =
    | ConsensusNodeComponent(base: Base, state: NodeState, nodeId: JsValue)
    | RelayComponent(base: Base, consensusNodeAliases: seq<JsValue>)
    | EnvoyProxyComponent(base: Base)
  {
    /** The type the constructor of each class hands to the base class. */
    function Type(): ComponentType
    {
      match this
      case ConsensusNodeComponent(_, _, _) => ConsensusNodeType
      case RelayComponent(_, _) => RelayType
      case EnvoyProxyComponent(_) => EnvoyProxyType
    }
  }

  /** The reasons construction throws. */
  datatype ComponentError =
    | InvalidBaseComponent
    | InvalidConsensusNodeState(state: NodeState)
    | NodeIdNotANumber(nodeId: JsValue)
    | NegativeNodeId(negativeId: int)
    | InvalidConsensusNodeAlias(alias: JsValue)

  /**
   * The plain-object form written to and read from the persisted document.
   * One shape per struct interface of the source.
   */
  datatype ComponentObject =
    | BaseObject(componentType: ComponentType, name: string, cluster: string, namespace: string)
    | ConsensusNodeObject(componentType: ComponentType, name: string, cluster: string, namespace: string,
                          state: NodeState, nodeId: JsValue)
    | RelayObject(componentType: ComponentType, name: string, cluster: string, namespace: string,
                  consensusNodeAliases: Option<seq<JsValue>>)

  predicate IsRecognisedType(t: ComponentType)
  {
    !t.UnrecognisedType?
  }

  /** `isValidEnum(state, ConsensusNodeStates)`. */
  predicate IsRecognisedState(s: NodeState)
  {
    !s.UnrecognisedState?
  }

  /**
   * The base class's own check. Its source is not part of this model, so
   * this is an assumption: a recognised type and non-empty name, cluster and
   * namespace.
   */
  predicate BaseValid(t: ComponentType, b: Base)
  {
    IsRecognisedType(t) && b.name != "" && b.cluster != "" && b.namespace != ""
  }

  /** The relay's check on one alias: `!alias || typeof alias !== 'string'` rejects it. */
  predicate ValidAlias(a: JsValue)
  {
    Truthy(a) && a.JsString?
  }

  /** Index of the first alias the relay's loop rejects, or `|aliases|` when there is none. */
  function FirstInvalidAlias(aliases: seq<JsValue>): (k: nat)
    ensures k <= |aliases|
    ensures forall i :: 0 <= i < k ==> ValidAlias(aliases[i])
    ensures k < |aliases| ==> !ValidAlias(aliases[k])
  {
    if |aliases| == 0 then 0
    else if !ValidAlias(aliases[0]) then 0
    else 1 + FirstInvalidAlias(aliases[1..])
  }

  /**
   * `validate()` of each class: the base check first, then the checks the
   * variant adds, in source order; the first failing check decides the error.
   */
  function Validate(c: Component): (r: Outcome<ComponentError>)
    ensures !BaseValid(c.Type(), c.base) ==> r == Fail(InvalidBaseComponent)
    ensures r.Pass? <==> Valid(c)
  {
    if !BaseValid(c.Type(), c.base) then Fail(InvalidBaseComponent)
    else match c
      case ConsensusNodeComponent(_, state, nodeId) =>
        if !IsRecognisedState(state) then Fail(InvalidConsensusNodeState(state))
        else if !nodeId.JsNumber? then Fail(NodeIdNotANumber(nodeId))
        else if nodeId.n < 0 then Fail(NegativeNodeId(nodeId.n))
        else Pass
      case RelayComponent(_, aliases) =>
        var k := FirstInvalidAlias(aliases);
        if k < |aliases| then Fail(InvalidConsensusNodeAlias(aliases[k])) else Pass
      case EnvoyProxyComponent(_) => Pass
  }

  /**
   * What a well-formed component is, stated independently of `Validate`:
   * the assumed base check, then the variant's own conditions.
   */
  predicate Valid(c: Component)
  {
    && BaseValid(c.Type(), c.base)
    && match c
       case ConsensusNodeComponent(_, state, nodeId) =>
         IsRecognisedState(state) && nodeId.JsNumber? && nodeId.n >= 0
       case RelayComponent(_, aliases) =>
         forall i :: 0 <= i < |aliases| ==> aliases[i].JsString? && aliases[i].s != ""
       case EnvoyProxyComponent(_) => true
  }

  /** Construction: build the record, then run `validate()`, throwing on the first failed check. */
  function Construct(c: Component): (r: Result<Component, ComponentError>)
    ensures r.Success? <==> Valid(c)
    ensures r.Success? ==> r.value == c
    ensures r.Failure? ==> Validate(c) == Fail(r.error)
  {
    match Validate(c)
    case Pass => Success(c)
    case Fail(e) => Failure(e)
  }

  /** `new ConsensusNodeComponent(name, cluster, namespace, state, nodeId)`. */
  function NewConsensusNode(name: string, cluster: string, namespace: string,
                            state: NodeState, nodeId: JsValue): (r: Result<Component, ComponentError>)
    ensures r.Success? ==> r.value.Type() == ConsensusNodeType && Valid(r.value)
    ensures r.Success? <==>
      && name != "" && cluster != "" && namespace != ""
      && IsRecognisedState(state) && nodeId.JsNumber? && nodeId.n >= 0
    ensures (name == "" || cluster == "" || namespace == "") ==> r == Failure(InvalidBaseComponent)
    ensures name != "" && cluster != "" && namespace != "" && !IsRecognisedState(state) ==>
      r == Failure(InvalidConsensusNodeState(state))
    ensures name != "" && cluster != "" && namespace != "" && IsRecognisedState(state) && !nodeId.JsNumber? ==>
      r == Failure(NodeIdNotANumber(nodeId))
    ensures name != "" && cluster != "" && namespace != "" && IsRecognisedState(state) && nodeId.JsNumber? && nodeId.n < 0 ==>
      r == Failure(NegativeNodeId(nodeId.n))
  {
    Construct(ConsensusNodeComponent(Base(name, cluster, namespace), state, nodeId))
  }

  /** `new RelayComponent(name, cluster, namespace, aliases = [])`; `None` is an omitted argument. */
  function NewRelay(name: string, cluster: string, namespace: string,
                    consensusNodeAliases: Option<seq<JsValue>>): (r: Result<Component, ComponentError>)
    ensures r.Success? ==> r.value.Type() == RelayType && Valid(r.value)
    ensures consensusNodeAliases.None? ==> (r.Success? <==> name != "" && cluster != "" && namespace != "")
    ensures consensusNodeAliases.None? && r.Success? ==> r.value.consensusNodeAliases == []
    ensures consensusNodeAliases.Some? && r.Success? ==>
      r.value.consensusNodeAliases == consensusNodeAliases.value
    ensures name != "" && cluster != "" && namespace != "" && consensusNodeAliases.Some? ==>
      (r.Success? <==> forall i :: 0 <= i < |consensusNodeAliases.value| ==> ValidAlias(consensusNodeAliases.value[i]))
  {
    var aliases := match consensusNodeAliases case Some(a) => a case None => [];
    Construct(RelayComponent(Base(name, cluster, namespace), aliases))
  }

  /** `new EnvoyProxyComponent(name, cluster, namespace)`. */
  function NewEnvoyProxy(name: string, cluster: string, namespace: string): (r: Result<Component, ComponentError>)
    ensures r.Success? <==> name != "" && cluster != "" && namespace != ""
    ensures r.Failure? ==> r.error == InvalidBaseComponent
    ensures r.Success? ==> r.value.Type() == EnvoyProxyType && r.value.base == Base(name, cluster, namespace)
  {
    Construct(EnvoyProxyComponent(Base(name, cluster, namespace)))
  }

  /** `toObject()`: the base fields and the type, plus the fields the variant adds. */
  function ToObject(c: Component): (o: ComponentObject)
    ensures o.componentType == c.Type()
    ensures o.name == c.base.name && o.cluster == c.base.cluster && o.namespace == c.base.namespace
    ensures c.ConsensusNodeComponent? <==> o.ConsensusNodeObject?
    ensures c.RelayComponent? <==> o.RelayObject?
    ensures c.EnvoyProxyComponent? <==> o.BaseObject?
    ensures c.ConsensusNodeComponent? ==> o.state == c.state && o.nodeId == c.nodeId
    ensures c.RelayComponent? ==> o.consensusNodeAliases == Some(c.consensusNodeAliases)
  {
    match c
    case ConsensusNodeComponent(b, state, nodeId) =>
      ConsensusNodeObject(ConsensusNodeType, b.name, b.cluster, b.namespace, state, nodeId)
    case RelayComponent(b, aliases) =>
      RelayObject(RelayType, b.name, b.cluster, b.namespace, Some(aliases))
    case EnvoyProxyComponent(b) =>
      BaseObject(EnvoyProxyType, b.name, b.cluster, b.namespace)
  }

  /** `ConsensusNodeComponent.fromObject`: takes name, cluster, namespace, state and nodeId; the type is reassigned. */
  function ConsensusNodeFromObject(o: ComponentObject): (r: Result<Component, ComponentError>)
    requires o.ConsensusNodeObject?
    ensures r.Success? ==> r.value == ConsensusNodeComponent(Base(o.name, o.cluster, o.namespace), o.state, o.nodeId)
    ensures r.Success? <==> Valid(ConsensusNodeComponent(Base(o.name, o.cluster, o.namespace), o.state, o.nodeId))
  {
    NewConsensusNode(o.name, o.cluster, o.namespace, o.state, o.nodeId)
  }

  /** `RelayComponent.fromObject`: an absent alias list falls back to the constructor default. */
  function RelayFromObject(o: ComponentObject): (r: Result<Component, ComponentError>)
    requires o.RelayObject?
    ensures r.Success? ==> r.value.RelayComponent? && r.value.base == Base(o.name, o.cluster, o.namespace)
    ensures r.Success? && o.consensusNodeAliases.Some? ==> r.value.consensusNodeAliases == o.consensusNodeAliases.value
    ensures r.Success? && o.consensusNodeAliases.None? ==> r.value.consensusNodeAliases == []
    ensures r.Success? <==>
      Valid(RelayComponent(Base(o.name, o.cluster, o.namespace),
                           match o.consensusNodeAliases case Some(a) => a case None => []))
  {
    NewRelay(o.name, o.cluster, o.namespace, o.consensusNodeAliases)
  }

  /** `EnvoyProxyComponent.fromObject`: reads only the base fields of any object shape. */
  function EnvoyProxyFromObject(o: ComponentObject): (r: Result<Component, ComponentError>)
    ensures r.Success? ==> r.value == EnvoyProxyComponent(Base(o.name, o.cluster, o.namespace))
    ensures r.Success? <==> o.name != "" && o.cluster != "" && o.namespace != ""
  {
    NewEnvoyProxy(o.name, o.cluster, o.namespace)
  }

  /**
   * The `fromObject` of the class that produced the object shape. What it
   * builds is always valid, has the class's own type and the object's base
   * fields.
   */
  function FromObject(o: ComponentObject): (r: Result<Component, ComponentError>)
    ensures r.Success? ==> Valid(r.value) && r.value.base == Base(o.name, o.cluster, o.namespace)
    ensures r.Success? ==>
      (r.value.Type() ==
         match o
         case ConsensusNodeObject(_, _, _, _, _, _) => ConsensusNodeType
         case RelayObject(_, _, _, _, _) => RelayType
         case BaseObject(_, _, _, _) => EnvoyProxyType)
  {
    match o
    case ConsensusNodeObject(_, _, _, _, _, _) => ConsensusNodeFromObject(o)
    case RelayObject(_, _, _, _, _) => RelayFromObject(o)
    case BaseObject(_, _, _, _) => EnvoyProxyFromObject(o)
  }

  /** Serialising a valid component and reading it back gives the same component, every field included. */
  lemma RoundTrip(c: Component)
    requires Valid(c)
    ensures FromObject(ToObject(c)) == Success(c)
  {
  }

  /** An invalid component cannot be serialised and read back: the reader throws. */
  lemma RoundTripRejectsInvalid(c: Component)
    requires !Valid(c)
    ensures FromObject(ToObject(c)).Failure?
  {
  }

  /** Reading an object that the reader accepts and writing it back reproduces it, apart from the type tag. */
  lemma ObjectRoundTrip(o: ComponentObject)
    requires FromObject(o).Success?
    ensures ToObject(FromObject(o).value) ==
      match o
      case ConsensusNodeObject(_, n, c, ns, s, id) => ConsensusNodeObject(ConsensusNodeType, n, c, ns, s, id)
      case RelayObject(_, n, c, ns, a) =>
        RelayObject(RelayType, n, c, ns, Some(match a case Some(v) => v case None => []))
      case BaseObject(_, n, c, ns) => BaseObject(EnvoyProxyType, n, c, ns)
  {
  }

  /** Whatever type tag the object carries, the reader assigns the class's own recognised type. */
  lemma FromObjectIgnoresType(o: ComponentObject, t: ComponentType)
    ensures FromObject(o.(componentType := t)) == FromObject(o)
    ensures FromObject(o).Success? ==> IsRecognisedType(FromObject(o).value.Type())
  {
  }

  /** The envoy-proxy reader builds the same proxy from any object shape with the same base fields. */
  lemma EnvoyProxyFromAnyShape(o: ComponentObject)
    ensures EnvoyProxyFromObject(o) == EnvoyProxyFromObject(BaseObject(UnrecognisedType(""), o.name, o.cluster, o.namespace))
  {
  }

  /** Node id 0 passes the node-id checks; -1 is rejected as negative, not as a non-number. */
  lemma NodeIdBoundary(name: string, cluster: string, namespace: string, state: NodeState)
    requires name != "" && cluster != "" && namespace != "" && IsRecognisedState(state)
    ensures NewConsensusNode(name, cluster, namespace, state, JsNumber(0)).Success?
    ensures NewConsensusNode(name, cluster, namespace, state, JsNumber(-1)) == Failure(NegativeNodeId(-1))
  {
  }

  /**
   * A relay with a rejected alias anywhere in its list (the empty string,
   * `null`, `undefined`, `0`, `false` or any non-string) fails with the alias
   * error, naming the first rejected alias.
   */
  lemma EmptyAliasRejected(name: string, cluster: string, namespace: string, aliases: seq<JsValue>, i: nat)
    requires name != "" && cluster != "" && namespace != ""
    requires i < |aliases| && !ValidAlias(aliases[i])
    ensures NewRelay(name, cluster, namespace, Some(aliases)).Failure?
    ensures NewRelay(name, cluster, namespace, Some(aliases)).error.InvalidConsensusNodeAlias?
    ensures !ValidAlias(NewRelay(name, cluster, namespace, Some(aliases)).error.alias)
    ensures NewRelay(name, cluster, namespace, Some(aliases)).error.alias == aliases[FirstInvalidAlias(aliases)]
  {
  }
}

=== FILE: helm_dependency_manager.dfy ===
/**
 * The string logic of `HelmDependencyManager`: normalising the Node.js
 * platform and architecture names to Helm's, naming the release artifact
 * and its download and checksum URLs, and reading the installed version
 * from `helm version --short`.
 */
module HelmDependencyManager {
  import opened Wrappers

  const HelmReleaseBaseUrl: string := "https://get.helm.sh"

  /** Helm's name for the Node.js platform: `win32` is `windows`, everything else is kept. */
  function NormalisePlatform(platform: string): (p: string)
    ensures platform == "win32" ==> p == "windows"
    ensures platform != "win32" ==> p == platform
    ensures p != "win32"
  {
    if platform == "win32" then "windows" else platform
  }

  /** Helm's name for the Node.js architecture: `x64` and `x86-64` are `amd64`, everything else is kept. */
  function NormaliseArch(arch: string): (a: string)
    ensures arch == "x64" || arch == "x86-64" ==> a == "amd64"
    ensures arch != "x64" && arch != "x86-64" ==> a == arch
    ensures a != "x64" && a != "x86-64"
  {
    if arch in ["x64", "x86-64"] then "amd64" else arch
  }

  /** Normalising twice is normalising once. */
  lemma NormaliseIdempotent(platform: string, arch: string)
    ensures NormalisePlatform(NormalisePlatform(platform)) == NormalisePlatform(platform)
    ensures NormaliseArch(NormaliseArch(arch)) == NormaliseArch(arch)
  {
  }

  /** The archive extension for a normalised platform; `None` where the table has no entry. */
  function ArtifactExtension(platform: string): (ext: Option<string>)
    ensures ext.Some? <==> platform in {"darwin", "linux", "windows"}
    ensures platform == "windows" ==> ext == Some("zip")
    ensures platform == "darwin" || platform == "linux" ==> ext == Some("tar.gz")
  {
    if platform == "darwin" || platform == "linux" then Some("tar.gz")
    else if platform == "windows" then Some("zip")
    else None
  }

  /** `util.format('%s', x)` on a string or `undefined`. */
  function FormatString(v: Option<string>): (r: string)
    ensures v.Some? ==> r == v.value
    ensures v.None? ==> r == "undefined"
  {
    match v
    case Some(s) => s
    case None => "undefined"
  }

  /**
   * `helm-<version>-<platform>-<arch>.<ext>`: it begins with `helm-` and the
   * version and ends with `.` and the platform's extension, or `.undefined`
   * for a platform missing from the table.
   */
  function ArtifactName(version: string, platform: string, arch: string): (name: string)
    ensures var head := "helm-" + version + "-";
      |name| > |head| && name[..|head|] == head
    ensures var tail := "." + FormatString(ArtifactExtension(platform));
      |name| > |tail| && name[|name| - |tail|..] == tail
    ensures ArtifactExtension(platform).None? ==> name[|name| - |".undefined"|..] == ".undefined"
  {
    "helm-" + version + "-" + platform + "-" + arch + "." + FormatString(ArtifactExtension(platform))
  }

  datatype Manager = Manager(
    installationDirectory: string,
    osPlatform: string,
    osArch: string,
    helmVersion: string,
    artifactName: string,
    helmURL: string,
    checksumURL: string)

  datatype HelmError = MissingArgument(message: string) | OutputMissing

  /**
   * The constructor: a missing or empty installation directory throws
   * `MissingArgumentError`; otherwise platform and architecture are
   * normalised and the artifact name and URLs derived from them.
   */
  function NewManager(installationDirectory: Option<string>, osPlatform: string, osArch: string, helmVersion: string): (r: Result<Manager, HelmError>)
    ensures r.Failure? <==> installationDirectory.None? || installationDirectory.value == ""
    ensures r.Failure? ==> r.error == MissingArgument("installation directory is required")
    ensures r.Success? ==>
      var m := r.value;
      && m.osPlatform == NormalisePlatform(osPlatform) && m.osArch == NormaliseArch(osArch)
      && m.artifactName == ArtifactName(helmVersion, m.osPlatform, m.osArch)
      && m.helmURL == HelmReleaseBaseUrl + "/" + m.artifactName
      && m.checksumURL == m.helmURL + ".sha256sum"
  {
    if installationDirectory.None? || installationDirectory.value == "" then
      Failure(MissingArgument("installation directory is required"))
    else
      var platform := NormalisePlatform(osPlatform);
      var arch := NormaliseArch(osArch);
      var name := ArtifactName(helmVersion, platform, arch);
      Success(Manager(installationDirectory.value, platform, arch, helmVersion, name,
                      HelmReleaseBaseUrl + "/" + name, HelmReleaseBaseUrl + "/" + name + ".sha256sum"))
  }

  /** On Windows the artifact is a zip and on Linux and macOS a gzipped tarball. */
  lemma ArtifactKinds(installationDirectory: string, osPlatform: string, osArch: string, helmVersion: string)
    requires installationDirectory != ""
    ensures var m := NewManager(Some(installationDirectory), osPlatform, osArch, helmVersion).value;
      && (osPlatform == "win32" ==> m.artifactName == "helm-" + helmVersion + "-" + "windows" + "-" + m.osArch + "." + "zip")
      && (osPlatform == "linux" ==> m.artifactName == "helm-" + helmVersion + "-" + "linux" + "-" + m.osArch + "." + "tar.gz")
      && (osPlatform == "darwin" ==> m.artifactName == "helm-" + helmVersion + "-" + "darwin" + "-" + m.osArch + "." + "tar.gz")
  {
  }

  /** A platform outside the extension table gets the extension `undefined` rather than an error. */
  lemma UnknownPlatformExtension(installationDirectory: string, osPlatform: string, osArch: string, helmVersion: string)
    requires installationDirectory != ""
    requires osPlatform != "win32" && osPlatform != "windows" && osPlatform != "darwin" && osPlatform != "linux"
    ensures var m := NewManager(Some(installationDirectory), osPlatform, osArch, helmVersion).value;
      m.artifactName == "helm-" + helmVersion + "-" + osPlatform + "-" + m.osArch + "." + "undefined"
  {
  }

  /** The checksum URL is the download URL with `.sha256sum` appended, so the two always name the same artifact. */
  lemma ChecksumNamesSameArtifact(installationDirectory: string, osPlatform: string, osArch: string, helmVersion: string)
    requires installationDirectory != ""
    ensures var m := NewManager(Some(installationDirectory), osPlatform, osArch, helmVersion).value;
      && |m.checksumURL| == |m.helmURL| + |".sha256sum"|
      && m.checksumURL[..|m.helmURL|] == m.helmURL
      && m.helmURL[..|HelmReleaseBaseUrl| + 1] == "https://get.helm.sh/"
  {
    var m := NewManager(Some(installationDirectory), osPlatform, osArch, helmVersion).value;
    assert m.checksumURL == m.helmURL + ".sha256sum";
    assert m.helmURL == HelmReleaseBaseUrl + "/" + m.artifactName;
    assert (HelmReleaseBaseUrl + "/" + m.artifactName)[..|HelmReleaseBaseUrl| + 1] == HelmReleaseBaseUrl + "/";
  }

  /** `line.split('+')[0]`: the text before the first `+`, or the whole line when there is none. */
  function BeforeFirstPlus(line: string): (v: string)
    ensures |v| <= |line| && v == line[..|v|]
    ensures '+' !in v
    ensures |v| < |line| ==> line[|v|] == '+'
  {
    if |line| == 0 || line[0] == '+' then ""
    else [line[0]] + BeforeFirstPlus(line[1..])
  }

  /** The version `checkVersion` compares: the first output line up to its first `+`; no output line throws. */
  function InstalledVersion(output: seq<string>): (r: Result<string, HelmError>)
    ensures r.Success? <==> |output| > 0
    ensures r.Success? ==> r.value == BeforeFirstPlus(output[0])
  {
    if |output| == 0 then Failure(OutputMissing) else Success(BeforeFirstPlus(output[0]))
  }

  /** The build metadata after `+` is dropped: `v3.14.2+g1234` reads as `v3.14.2`. */
  lemma VersionDropsBuildMetadata(version: string, metadata: string, rest: seq<string>)
    requires '+' !in version
    ensures InstalledVersion([version + "+" + metadata] + rest) == Success(version)
  {
    var line := version + "+" + metadata;
    assert line[..|version|] == version;
    BeforeFirstPlusStopsAt(line, |version|);
  }

  /** The prefix ends exactly at the first `+`. */
  lemma {:induction false} BeforeFirstPlusStopsAt(line: string, k: nat)
    requires k < |line| && line[k] == '+' && '+' !in line[..k]
    ensures BeforeFirstPlus(line) == line[..k]
  {
    if k > 0 {
      assert line[0] == line[..k][0];
      assert line[1..][..k - 1] == line[1..k];
      assert '+' !in line[1..][..k - 1];
      BeforeFirstPlusStopsAt(line[1..], k - 1);
      assert line[..k] == [line[0]] + line[1..k];
    }
  }
}

=== FILE: js_text.dfy ===
/**
 * The few pieces of JavaScript value and string semantics the model relies on:
 * dynamically typed values, truthiness, `String.prototype.trim` and
 * `Array.prototype.join`.
 */
module JsText {

  /** A JavaScript value as far as the modelled code inspects it (`typeof`, truthiness). */
  datatype JsValue =
    | JsUndefined
    | JsNull
    | JsBool(b: bool)
    | JsNumber(n: int)
    | JsString(s: string)
    | JsObject

  /** JavaScript truthiness: `false`, `0`, `""`, `null` and `undefined` are falsy. */
  predicate Truthy(v: JsValue)
  {
    match v
    case JsUndefined => false
    case JsNull => false
    case JsBool(b) => b
    case JsNumber(n) => n != 0
    case JsString(s) => s != ""
    case JsObject => true
  }

  /** The code points `trim` removes: ECMAScript WhiteSpace and LineTerminator. */
  predicate IsWhitespace(c: char)
  {
    || c == '\t' || c == '\n' || c == '\U{B}' || c == '\U{C}' || c == '\r' || c == ' '
    || c == '\U{A0}' || c == '\U{1680}' || ('\U{2000}' <= c <= '\U{200A}')
    || c == '\U{2028}' || c == '\U{2029}' || c == '\U{202F}' || c == '\U{205F}'
    || c == '\U{3000}' || c == '\U{FEFF}'
  }

  predicate AllWhitespace(s: string)
  {
    forall i :: 0 <= i < |s| ==> IsWhitespace(s[i])
  }

  /** Drops leading whitespace: the longest suffix of `s` that does not start with whitespace. */
  function TrimStart(s: string): (r: string)
    ensures |r| <= |s| && r == s[|s| - |r|..]
    ensures AllWhitespace(s[..|s| - |r|])
    ensures |r| > 0 ==> !IsWhitespace(r[0])
  {
    if |s| > 0 && IsWhitespace(s[0]) then TrimStart(s[1..]) else s
  }

  /** Drops trailing whitespace: the longest prefix of `s` that does not end with whitespace. */
  function TrimEnd(s: string): (r: string)
    ensures |r| <= |s| && r == s[..|r|]
    ensures AllWhitespace(s[|r|..])
    ensures |r| > 0 ==> !IsWhitespace(r[|r| - 1])
  {
    if |s| > 0 && IsWhitespace(s[|s| - 1]) then TrimEnd(s[..|s| - 1]) else s
  }

  /**
   * `String.prototype.trim`: neither starts nor ends with whitespace;
   * `TrimSlice` says which slice of `s` it is.
   */
  function Trim(s: string): (r: string)
    ensures |r| <= |s|
    ensures |r| > 0 ==> !IsWhitespace(r[0]) && !IsWhitespace(r[|r| - 1])
  {
    TrimEnd(TrimStart(s))
  }

  /** `r` is the slice of `s` starting at `k`, with only whitespace before and after it. */
  predicate FramedSlice(s: string, k: nat, r: string)
  {
    && k + |r| <= |s| && r == s[k..k + |r|]
    && AllWhitespace(s[..k]) && AllWhitespace(s[k + |r|..])
  }

  /** `trim` keeps the slice `s[k..k + |r|]` and removes only whitespace on either side of it. */
  lemma TrimSlice(s: string)
    ensures FramedSlice(s, |s| - |TrimStart(s)|, Trim(s))
  {
    var t := TrimStart(s);
    ShiftedSlice(s, t, TrimEnd(t));
  }

  /** A prefix `r` of a suffix `t` of `s`, with whitespace around it, is a whitespace-framed slice of `s`. */
  lemma ShiftedSlice(s: string, t: string, r: string)
    requires |t| <= |s| && t == s[|s| - |t|..] && AllWhitespace(s[..|s| - |t|])
    requires |r| <= |t| && r == t[..|r|] && AllWhitespace(t[|r|..])
    ensures FramedSlice(s, |s| - |t|, r)
  {
    var k := |s| - |t|;
    assert t[..|r|] == s[k..k + |r|];
    assert t[|r|..] == s[k + |r|..];
  }

  /** `s.trim() === ''` holds exactly when every character of `s` is whitespace. */
  lemma TrimEmptyIffBlank(s: string)
    ensures Trim(s) == "" <==> AllWhitespace(s)
  {
    var t := TrimStart(s);
    var k := |s| - |t|;
    if Trim(s) == "" {
      assert t[|TrimEnd(t)|..] == t;
      forall i | 0 <= i < |s|
        ensures IsWhitespace(s[i])
      {
        assert s[..k][i] == s[i];
      }
    }
  }

  /** Trimming a string whose non-empty prefix `p` starts and ends with non-whitespace keeps all of `p`. */
  lemma TrimKeepsPrefix(p: string, rest: string)
    requires |p| > 0 && !IsWhitespace(p[0]) && !IsWhitespace(p[|p| - 1])
    ensures |Trim(p + rest)| >= |p| && Trim(p + rest)[..|p|] == p
  {
    var s := p + rest;
    assert s[0] == p[0];
    TrimStartKeeps(s);
    assert s[|p| - 1] == p[|p| - 1];
    TrimEndKeeps(s, |p|);
    var r := TrimEnd(s);
    assert r == s[..|r|];
    assert r[..|p|] == s[..|p|];
    assert s[..|p|] == p;
  }

  /** Leading-whitespace removal leaves a string that starts with non-whitespace untouched. */
  lemma TrimStartKeeps(s: string)
    requires |s| > 0 && !IsWhitespace(s[0])
    ensures TrimStart(s) == s
  {
  }

  /** Trailing-whitespace removal never cuts into a prefix that ends in a non-whitespace character. */
  lemma {:induction false} TrimEndKeeps(s: string, k: nat)
    requires 0 < k <= |s| && !IsWhitespace(s[k - 1])
    ensures |TrimEnd(s)| >= k
  {
    if IsWhitespace(s[|s| - 1]) {
      TrimEndKeeps(s[..|s| - 1], k);
    }
  }

  /** The total length of a list of strings. */
  function TotalLength(parts: seq<string>): nat
  {
    if |parts| == 0 then 0 else |parts[0]| + TotalLength(parts[1..])
  }

  /**
   * `Array.prototype.join(sep)` on an array of strings: the parts in order,
   * one separator between each neighbouring pair and none at the ends.
   */
  function Join(parts: seq<string>, sep: string): (r: string)
    ensures |parts| == 0 ==> r == ""
    ensures |parts| == 1 ==> r == parts[0]
    ensures |parts| > 0 ==> |r| == TotalLength(parts) + (|parts| - 1) * |sep|
    ensures |parts| > 0 ==> r[..|parts[0]|] == parts[0]
    ensures |parts| > 1 ==> r[|parts[0]|..|parts[0]| + |sep|] == sep
  {
    if |parts| == 0 then ""
    else if |parts| == 1 then parts[0]
    else parts[0] + sep + Join(parts[1..], sep)
  }

  /** Joining one more part appends the separator and that part: every part appears, in order. */
  lemma {:induction false} JoinAppend(parts: seq<string>, p: string, sep: string)
    requires |parts| > 0
    ensures Join(parts + [p], sep) == Join(parts, sep) + sep + p
    decreases |parts|
  {
    var q := parts + [p];
    assert q[0] == parts[0] && q[1..] == parts[1..] + [p];
    if |parts| == 1 {
      assert q[1..] == [p];
    } else {
      JoinAppend(parts[1..], p, sep);
      var tail := Join(parts[1..], sep);
      assert Join(q, sep) == parts[0] + sep + (tail + sep + p);
      Regroup(parts[0], sep, tail, sep, p);
    }
  }

  /** Regrouping a five-part concatenation. */
  lemma Regroup(a: string, b: string, c: string, d: string, e: string)
    ensures a + b + (c + d + e) == (a + b + c) + d + e
  {
  }
}

=== FILE: remote_config.dfy ===
/**
 * The remote configuration envelope: the one document per deployment that
 * records its clusters, its components, the versions deployed and the
 * history of commands run against it, together with the pure computations
 * the manager performs on it.
 */
module RemoteConfig {
  import opened Wrappers
  import opened JsText
  import opened Components

  /** One entry of the cluster registry. */
  datatype Cluster = Cluster(
    name: string,
    namespace: string,
    deployment: string,
    dnsBaseDomain: string,
    dnsConsensusNodePattern: string)

  /** The registry as a JavaScript object: its keys in `Object.keys` order, each with its entry. */
  type ClusterRegistry = seq<(string, Cluster)>

  /** The components directory, one list per kind, each in `Object.values` order. */
  datatype ComponentsDirectory = ComponentsDirectory(
    consensusNodes: seq<Component>,
    relays: seq<Component>,
    envoyProxies: seq<Component>)

  /** The common-flags ledger. Its class is not part of this model; it is handled as an opaque value. */
  datatype FlagsLedger = FlagsLedger(entries: map<string, string>)

  datatype Metadata = Metadata(
    namespace: string,
    deploymentName: string,
    state: string,
    lastUpdatedAt: string,
    lastUpdatedBy: string,
    soloVersion: string,
    soloChartVersion: Option<string>,
    hederaPlatformVersion: Option<string>,
    hederaMirrorNodeChartVersion: Option<string>,
    hederaExplorerChartVersion: Option<string>,
    hederaJsonRpcRelayChartVersion: Option<string>)

  datatype Envelope = Envelope(
    metadata: Metadata,
    clusters: ClusterRegistry,
    components: ComponentsDirectory,
    commandHistory: seq<string>,
    lastExecutedCommand: string,
    flags: FlagsLedger)

  /**
   * The parsed command line as the manager reads it: the positional words
   * `argv._`, the version flags it consults, and the rendering of the
   * remaining flags that `flags.stringifyArgv` produces (its code is not
   * part of this model).
   */
  datatype Argv = Argv(
    positional: seq<string>,
    soloChartVersion: Option<string>,
    releaseTag: Option<string>,
    mirrorNodeVersion: Option<string>,
    hederaExplorerVersion: Option<string>,
    relayReleaseTag: Option<string>,
    stringifiedFlags: string)

  /** The default value of each version flag. */
  datatype VersionDefaults = VersionDefaults(
    soloChartVersion: string,
    releaseTag: string,
    mirrorNodeVersion: string,
    hederaExplorerVersion: string,
    relayReleaseTag: string)

  /* ---------- Cluster registry ---------- */

  function ClusterKeys(r: ClusterRegistry): (keys: seq<string>)
    ensures |keys| == |r|
    ensures forall i :: 0 <= i < |r| ==> keys[i] == r[i].0
  {
    seq(|r|, i requires 0 <= i < |r| => r[i].0)
  }

  /** `clusters[ref]`: the entry under a key, `None` for `undefined`. */
  function LookupCluster(r: ClusterRegistry, key: string): (c: Option<Cluster>)
    ensures c.Some? <==> key in ClusterKeys(r)
    ensures c.Some? ==> (key, c.value) in r
  {
    if |r| == 0 then None
    else if r[0].0 == key then Some(r[0].1)
    else LookupCluster(r[1..], key)
  }

  /* ---------- compare ---------- */

  /** The `for ... in` loop of `compare` from position `i` on: no position from `i` differs. */
  function KeysAgreeFrom(k1: seq<string>, k2: seq<string>, i: nat): (same: bool)
    requires |k1| == |k2| && i <= |k1|
    ensures same <==> k1[i..] == k2[i..]
    decreases |k1| - i
  {
    if i == |k1| then true
    else if k1[i] != k2[i] then false
    else KeysAgreeFrom(k1, k2, i + 1)
  }

  /**
   * `RemoteConfigManager.compare`: lengths of the two key lists first, then
   * position by position. Components, metadata and history are not looked at.
   */
  function Compare(a: Envelope, b: Envelope): (same: bool)
    ensures same <==> ClusterKeys(a.clusters) == ClusterKeys(b.clusters)
  {
    var k1 := ClusterKeys(a.clusters);
    var k2 := ClusterKeys(b.clusters);
    if |k1| != |k2| then false else KeysAgreeFrom(k1, k2, 0)
  }

  /** Two envelopes with the same cluster keys compare equal whatever else differs. */
  lemma CompareIsShallow(a: Envelope, clusters: ClusterRegistry, components: ComponentsDirectory,
                         metadata: Metadata, history: seq<string>)
    requires ClusterKeys(clusters) == ClusterKeys(a.clusters)
    ensures Compare(a, a.(clusters := clusters, components := components, metadata := metadata, commandHistory := history))
  {
  }

  /** The same keys in another order compare unequal: the check is on the ordered list. */
  lemma CompareIsOrderSensitive(a: Envelope, b: Envelope, i: nat, j: nat)
    requires i < j < |a.clusters| && a.clusters[i].0 != a.clusters[j].0
    requires |b.clusters| == |a.clusters|
    requires b.clusters[i] == a.clusters[j] && b.clusters[j] == a.clusters[i]
    ensures !Compare(a, b)
  {
    assert ClusterKeys(a.clusters)[i] != ClusterKeys(b.clusters)[i];
  }

  /** `compare` is an equivalence: reflexive, symmetric and transitive. */
  lemma CompareIsEquivalence(a: Envelope, b: Envelope, c: Envelope)
    ensures Compare(a, a)
    ensures Compare(a, b) == Compare(b, a)
    ensures Compare(a, b) && Compare(b, c) ==> Compare(a, c)
  {
  }

  /* ---------- Components directory ---------- */

  /** `ComponentsDataWrapper.initializeEmpty()`. */
  function InitializeEmpty(): (d: ComponentsDirectory)
    ensures |d.consensusNodes| == 0 && |d.relays| == 0 && |d.envoyProxies| == 0
  {
    ComponentsDirectory([], [], [])
  }

  /** The consensus nodes `initializeWithNodes` builds for the first `n` aliases. */
  function NodesFor(aliases: seq<string>, cluster: string, namespace: string, state: NodeState, n: nat): (nodes: seq<Component>)
    requires n <= |aliases|
    ensures |nodes| == n
    ensures forall i :: 0 <= i < n ==>
      nodes[i] == ConsensusNodeComponent(Base(aliases[i], cluster, namespace), state, JsNumber(i))
  {
    if n == 0 then []
    else NodesFor(aliases, cluster, namespace, state, n - 1)
         + [ConsensusNodeComponent(Base(aliases[n - 1], cluster, namespace), state, JsNumber(n - 1))]
  }

  /**
   * The condition under which every initial consensus node passes its
   * constructor's `validate()`: with no aliases no node is built; otherwise
   * cluster, namespace and every alias must be non-empty and the initial
   * state recognised (ids 0..n-1 are numbers >= 0).
   */
  predicate InitialNodesValid(aliases: seq<string>, cluster: string, namespace: string, state: NodeState)
  {
    |aliases| == 0 ||
    (cluster != "" && namespace != "" && IsRecognisedState(state) && forall i :: 0 <= i < |aliases| ==> aliases[i] != "")
  }

  /**
   * The error the first failing node's constructor throws: the base check
   * runs first, so node 0's empty name, cluster or namespace wins over a
   * bad state; once node 0 passes, only a later empty alias can fail.
   */
  function FirstNodeError(aliases: seq<string>, cluster: string, namespace: string, state: NodeState): ComponentError
    requires |aliases| > 0
  {
    if cluster == "" || namespace == "" || aliases[0] == "" || IsRecognisedState(state) then InvalidBaseComponent
    else InvalidConsensusNodeState(state)
  }

  /** Constructs the nodes for the first `n` aliases in order; the first constructor that throws ends it. */
  function BuildNodes(aliases: seq<string>, cluster: string, namespace: string, state: NodeState, n: nat): (r: Result<seq<Component>, ComponentError>)
    requires n <= |aliases|
    ensures r.Success? <==> InitialNodesValid(aliases[..n], cluster, namespace, state)
    ensures r.Success? ==> r.value == NodesFor(aliases, cluster, namespace, state, n)
    ensures r.Failure? ==> r.error == FirstNodeError(aliases, cluster, namespace, state)
  {
    if n == 0 then Success([])
    else
      var prefix :- BuildNodes(aliases, cluster, namespace, state, n - 1);
      assert aliases[..n - 1] == aliases[..n][..n - 1];
      var node :- NewConsensusNode(aliases[n - 1], cluster, namespace, state, JsNumber(n - 1));
      Success(prefix + [node])
  }

  /**
   * `ComponentsDataWrapper.initializeWithNodes(aliases, cluster, namespace)`:
   * one consensus node per alias, in alias order, with node ids 0, 1, ...,
   * each built by the consensus-node constructor, so the first node that
   * fails validation throws. The wrapper's source is not part of this
   * model; the initial state is a parameter.
   */
  function InitializeWithNodes(aliases: seq<string>, cluster: string, namespace: string, state: NodeState): (r: Result<ComponentsDirectory, ComponentError>)
    ensures r.Success? <==> InitialNodesValid(aliases, cluster, namespace, state)
    ensures r.Failure? ==> r.error == FirstNodeError(aliases, cluster, namespace, state)
    ensures r.Success? ==>
      && |r.value.consensusNodes| == |aliases| && r.value.relays == [] && r.value.envoyProxies == []
      && forall i :: 0 <= i < |aliases| ==>
           && r.value.consensusNodes[i].ConsensusNodeComponent?
           && r.value.consensusNodes[i].base == Base(aliases[i], cluster, namespace)
           && r.value.consensusNodes[i].nodeId == JsNumber(i)
           && Valid(r.value.consensusNodes[i])
  {
    assert aliases[..|aliases|] == aliases;
    var nodes :- BuildNodes(aliases, cluster, namespace, state, |aliases|);
    Success(ComponentsDirectory(nodes, [], []))
  }

  /** Node ids are distinct, so no two initial nodes share a cluster and a node id. */
  lemma InitialNodeIdsDistinct(aliases: seq<string>, cluster: string, namespace: string, state: NodeState, i: nat, j: nat)
    requires InitialNodesValid(aliases, cluster, namespace, state)
    requires i < j < |aliases|
    ensures InitializeWithNodes(aliases, cluster, namespace, state).value.consensusNodes[i].nodeId
         != InitializeWithNodes(aliases, cluster, namespace, state).value.consensusNodes[j].nodeId
  {
  }

  /**
   * An empty alias anywhere makes `initializeWithNodes` throw; with a
   * recognised initial state the error is the base-component one.
   */
  lemma EmptyInitialAliasThrows(aliases: seq<string>, cluster: string, namespace: string, state: NodeState, k: nat)
    requires k < |aliases| && aliases[k] == ""
    ensures InitializeWithNodes(aliases, cluster, namespace, state).Failure?
    ensures IsRecognisedState(state) ==> InitializeWithNodes(aliases, cluster, namespace, state).error == InvalidBaseComponent
  {
  }

  /* ---------- Command history ---------- */

  /** `argv._.join(' ')`: the command as recorded in the history. */
  function CurrentCommand(argv: Argv): string
  {
    Join(argv.positional, " ")
  }

  /** The audit line `loadAndValidate` appends, trimmed. */
  function HistoryEntry(userName: string, argv: Argv): string
  {
    Trim("Executed by " + userName + ":" + " " + CurrentCommand(argv) + " " + argv.stringifiedFlags)
  }

  /** The audit line always begins with `Executed by <user>:` and carries no surrounding whitespace. */
  lemma HistoryEntryShape(userName: string, argv: Argv)
    ensures var e := HistoryEntry(userName, argv);
      && |e| >= |"Executed by " + userName + ":"|
      && e[..|"Executed by " + userName + ":"|] == "Executed by " + userName + ":"
      && !IsWhitespace(e[0]) && !IsWhitespace(e[|e| - 1])
  {
    var p := "Executed by " + userName + ":";
    var rest := " " + CurrentCommand(argv) + " " + argv.stringifiedFlags;
    assert "Executed by " + userName + ":" + " " + CurrentCommand(argv) + " " + argv.stringifiedFlags == p + rest;
    assert p[0] == 'E' && p[|p| - 1] == ':';
    TrimKeepsPrefix(p, rest);
    var e := HistoryEntry(userName, argv);
    assert e[0] == e[..|p|][0] == p[0];
  }

  /**
   * `addCommandToHistory` of the envelope (its class is not part of this
   * model): append at the most-recent end and remember it as the last command.
   */
  function AddCommandToHistory(env: Envelope, command: string): (r: Envelope)
    ensures r.commandHistory == env.commandHistory + [command]
    ensures r.lastExecutedCommand == command
    ensures r.(commandHistory := env.commandHistory, lastExecutedCommand := env.lastExecutedCommand) == env
  {
    env.(commandHistory := env.commandHistory + [command], lastExecutedCommand := command)
  }

  /* ---------- populateVersionsInMetadata ---------- */

  /** `argv._[i]`, `None` when the array is shorter (`undefined`). */
  function Word(argv: Argv, i: nat): Option<string>
  {
    if i < |argv.positional| then Some(argv.positional[i]) else None
  }

  /** A flag value JavaScript treats as set: present and not the empty string. */
  predicate IsSet(v: Option<string>)
  {
    v.Some? && v.value != ""
  }

  predicate Is(word: Option<string>, s: string)
  {
    word == Some(s)
  }

  /** The command/subcommand pairs that write the default solo chart version. */
  predicate UsesSoloChartVersion(command: Option<string>, subcommand: Option<string>)
  {
    || (Is(command, "network") && (Is(subcommand, "deploy") || Is(subcommand, "refresh")))
    || (Is(command, "node") &&
        (|| Is(subcommand, "update") || Is(subcommand, "update-execute")
         || Is(subcommand, "add") || Is(subcommand, "add-execute")
         || Is(subcommand, "delete") || Is(subcommand, "delete-execute")))
  }

  /** The pairs that write the default release tag: `node` with anything but keys/logs/states, and `network deploy`. */
  predicate UsesReleaseTag(command: Option<string>, subcommand: Option<string>)
  {
    || (Is(command, "node") && !Is(subcommand, "keys") && !Is(subcommand, "logs") && !Is(subcommand, "states"))
    || (Is(command, "network") && Is(subcommand, "deploy"))
  }

  /** The rule every version field follows: an explicit flag wins, else the default where the command uses it, else no change. */
  function ResolveVersion(flag: Option<string>, commandUsesFlag: bool, default: string, current: Option<string>): (v: Option<string>)
    ensures IsSet(flag) ==> v == flag
    ensures !IsSet(flag) && commandUsesFlag ==> v == Some(default)
    ensures !IsSet(flag) && !commandUsesFlag ==> v == current
  {
    if IsSet(flag) then flag else if commandUsesFlag then Some(default) else current
  }

  /** `populateVersionsInMetadata`: each of the five version fields by the same rule, nothing else touched. */
  function PopulateVersionsInMetadata(md: Metadata, argv: Argv, d: VersionDefaults): (r: Metadata)
    ensures r.(soloChartVersion := md.soloChartVersion,
               hederaPlatformVersion := md.hederaPlatformVersion,
               hederaMirrorNodeChartVersion := md.hederaMirrorNodeChartVersion,
               hederaExplorerChartVersion := md.hederaExplorerChartVersion,
               hederaJsonRpcRelayChartVersion := md.hederaJsonRpcRelayChartVersion) == md
    ensures IsSet(argv.releaseTag) ==> r.hederaPlatformVersion == argv.releaseTag
    ensures !IsSet(argv.releaseTag) ==>
      r.hederaPlatformVersion == if UsesReleaseTag(Word(argv, 0), Word(argv, 1)) then Some(d.releaseTag) else md.hederaPlatformVersion
    ensures IsSet(argv.soloChartVersion) ==> r.soloChartVersion == argv.soloChartVersion
    ensures !IsSet(argv.soloChartVersion) ==>
      r.soloChartVersion == if UsesSoloChartVersion(Word(argv, 0), Word(argv, 1)) then Some(d.soloChartVersion) else md.soloChartVersion
    ensures r.hederaMirrorNodeChartVersion ==
      ResolveVersion(argv.mirrorNodeVersion, Is(Word(argv, 0), "mirror-node") && Is(Word(argv, 1), "deploy"),
                     d.mirrorNodeVersion, md.hederaMirrorNodeChartVersion)
    ensures r.hederaExplorerChartVersion ==
      ResolveVersion(argv.hederaExplorerVersion, Is(Word(argv, 0), "explorer") && Is(Word(argv, 1), "deploy"),
                     d.hederaExplorerVersion, md.hederaExplorerChartVersion)
    ensures r.hederaJsonRpcRelayChartVersion ==
      ResolveVersion(argv.relayReleaseTag, Is(Word(argv, 0), "relay") && Is(Word(argv, 1), "deploy"),
                     d.relayReleaseTag, md.hederaJsonRpcRelayChartVersion)
  {
    var command := Word(argv, 0);
    var subcommand := Word(argv, 1);
    md.(soloChartVersion := ResolveVersion(argv.soloChartVersion, UsesSoloChartVersion(command, subcommand),
                                           d.soloChartVersion, md.soloChartVersion),
        hederaPlatformVersion := ResolveVersion(argv.releaseTag, UsesReleaseTag(command, subcommand),
                                                d.releaseTag, md.hederaPlatformVersion),
        hederaMirrorNodeChartVersion := ResolveVersion(argv.mirrorNodeVersion, Is(command, "mirror-node") && Is(subcommand, "deploy"),
                                                       d.mirrorNodeVersion, md.hederaMirrorNodeChartVersion),
        hederaExplorerChartVersion := ResolveVersion(argv.hederaExplorerVersion, Is(command, "explorer") && Is(subcommand, "deploy"),
                                                     d.hederaExplorerVersion, md.hederaExplorerChartVersion),
        hederaJsonRpcRelayChartVersion := ResolveVersion(argv.relayReleaseTag, Is(command, "relay") && Is(subcommand, "deploy"),
                                                         d.relayReleaseTag, md.hederaJsonRpcRelayChartVersion))
  }

  /** Running the same command twice records the same versions as running it once. */
  lemma PopulateIsIdempotent(md: Metadata, argv: Argv, d: VersionDefaults)
    ensures PopulateVersionsInMetadata(PopulateVersionsInMetadata(md, argv, d), argv, d)
         == PopulateVersionsInMetadata(md, argv, d)
  {
  }

  /** Every pair that defaults the chart version also defaults the release tag, except `network refresh`. */
  lemma SoloChartPairsDefaultReleaseTag(command: Option<string>, subcommand: Option<string>)
    ensures UsesSoloChartVersion(command, subcommand) && !(Is(command, "network") && Is(subcommand, "refresh"))
            ==> UsesReleaseTag(command, subcommand)
    ensures Is(command, "network") && Is(subcommand, "refresh") ==>
            UsesSoloChartVersion(command, subcommand) && !UsesReleaseTag(command, subcommand)
  {
  }

  /**
   * The command tables, subcommand by subcommand: `network deploy|refresh`
   * and the six `node` add/update/delete subcommands default the chart
   * version; `network deploy` and every `node` subcommand except
   * keys/logs/states default the release tag; no other command does either.
   */
  lemma CommandTables(command: Option<string>, subcommand: Option<string>)
    ensures Is(command, "network") ==>
      && (UsesSoloChartVersion(command, subcommand) <==> subcommand in {Some("deploy"), Some("refresh")})
      && (UsesReleaseTag(command, subcommand) <==> subcommand == Some("deploy"))
    ensures Is(command, "node") ==>
      && (UsesSoloChartVersion(command, subcommand) <==>
            subcommand in {Some("update"), Some("update-execute"), Some("add"), Some("add-execute"),
                           Some("delete"), Some("delete-execute")})
      && (UsesReleaseTag(command, subcommand) <==> subcommand !in {Some("keys"), Some("logs"), Some("states")})
    ensures !Is(command, "network") && !Is(command, "node") ==>
      !UsesSoloChartVersion(command, subcommand) && !UsesReleaseTag(command, subcommand)
  {
  }

  /** A bare `node` command, with no subcommand at all, still writes the default release tag. */
  lemma BareNodeCommandDefaultsReleaseTag(md: Metadata, argv: Argv, d: VersionDefaults)
    requires argv.positional == ["node"] && !IsSet(argv.releaseTag)
    ensures PopulateVersionsInMetadata(md, argv, d).hederaPlatformVersion == Some(d.releaseTag)
  {
  }
}

=== FILE: remote_config_manager.dfy ===
/**
 * `RemoteConfigManager`: the per-process holder of at most one loaded
 * envelope, and the only code that reads it from or writes it to the
 * ConfigMap store of each cluster.
 *
 * The manager's one mutable field becomes the `Option<Envelope>` that every
 * operation takes and returns. Everything the class reaches through its
 * injected collaborators (the namespace and context resolvers, the local
 * configuration, the store's answers, the validator, the flags ledger) is
 * an input in `World`. What the class does to the outside is returned as an
 * ordered log of `Event`s: store reads, creates and replaces, and the
 * invocation of a `modify` callback.
 */
module RemoteConfigManager {
  import opened Wrappers
  import opened JsText
  import opened Components
  import opened RemoteConfig

  /** The manager's state: the loaded envelope, `None` while nothing is loaded. */
  type State = Option<Envelope>

  /** An observable action of the manager, in the order it happens. */
  datatype Event =
    | ReadConfigMap(namespace: string, context: Option<string>)
    | CreateConfigMap(namespace: string, context: Option<string>, document: Envelope)
    | ReplaceConfigMap(namespace: string, context: Option<string>, document: Envelope)
    | CallbackInvoked

  /** What the store returns when the manager reads the ConfigMap. */
  datatype ReadFailure = ConfigMapNotFound | TransportFailure | UnparseableDocument

  datatype ReadResponse = Found(document: Envelope) | ReadFailed(failure: ReadFailure)

  datatype Deployment = Deployment(namespace: string, clusters: Option<seq<string>>)

  /** The local configuration: deployments by name and the cluster-reference to context mapping. */
  datatype LocalConfig = LocalConfig(deployments: map<string, Deployment>, clusterRefs: map<string, string>)

  /** What one call of a `modify` callback leaves behind: the envelope as it mutated it, and whether it threw. */
  datatype CallbackResult = CallbackResult(after: Envelope, thrown: Option<string>)

  /** `FullyQualifiedDomainName(name, nodeId, namespace, cluster, dnsBaseDomain, dnsConsensusNodePattern)`. */
  type DomainNameRenderer = (string, JsValue, string, string, string, string) -> string

  /** The collaborators of the manager, as inputs. */
  datatype World = World(
    namespace: string,                               // what `getNamespace()` resolves to
    deploymentFlag: Option<string>,                  // the `--deployment` flag
    readContext: Option<string>,                     // the context `load()` reads from
    read: ReadResponse,                              // the store's answer to that read
    localConfig: LocalConfig,
    rejectedWrites: set<Option<string>>,             // contexts whose create/replace rejects
    validator: (ComponentsDirectory, bool) -> bool,  // `RemoteConfigValidator.validateComponents`; the flag is `skipConsensusNodesValidation`
    userName: string,
    now: string,
    soloVersion: string,
    initialNodeState: NodeState,
    initialFlags: Argv -> FlagsLedger,               // `CommonFlagsDataWrapper.initialize`
    handleFlags: (FlagsLedger, Argv) -> FlagsLedger, // `flags.handleFlags`
    defaults: VersionDefaults)

  datatype ManagerError =
    | ModifyWithoutLoading
    | SaveWithoutData
    | LoadFailed(cause: ReadFailure)
    | DeploymentNotSet
    | DeploymentNotInLocalConfig(deployment: string)
    | ClusterRefsMissing(deployment: string)
    | WriteRejected
    | CallbackThrew(message: string)
    | ComponentsInvalid
    | RemoteConfigInvalid
    | NotLoaded
    | ClusterNotRegistered(cluster: string)
    | InitialNodeRejected(nodeError: ComponentError)

  /** The result of one manager operation: the new state, what it returned or threw, and what it did. */
  datatype Step<+T> = Step(state: State, outcome: Result<T, ManagerError>, events: seq<Event>)

  /* ---------- Event-log vocabulary ---------- */

  predicate IsWrite(e: Event)
  {
    e.CreateConfigMap? || e.ReplaceConfigMap?
  }

  function CountCallbacks(events: seq<Event>): (n: nat)
    ensures n <= |events|
    ensures n == 0 <==> forall i :: 0 <= i < |events| ==> events[i] != CallbackInvoked
  {
    if |events| == 0 then 0
    else CountCallbacks(events[..|events| - 1]) + (if events[|events| - 1] == CallbackInvoked then 1 else 0)
  }

  lemma CountCallbacksAppend(a: seq<Event>, b: seq<Event>)
    ensures CountCallbacks(a + b) == CountCallbacks(a) + CountCallbacks(b)
    decreases |b|
  {
    if |b| > 0 {
      assert (a + b)[..|a + b| - 1] == a + b[..|b| - 1];
      CountCallbacksAppend(a, b[..|b| - 1]);
    } else {
      assert a + b == a;
    }
  }

  /* ---------- isLoaded / unload / getters ---------- */

  /** `isLoaded()`. */
  predicate IsLoaded(s: State)
  {
    s.Some?
  }

  /**
   * `isLoaded()` across `load`, `unload` and `save`: a successful `load`
   * leaves a config loaded, a failed first `load` and `unload` leave none,
   * and `save` changes nothing. (`Create` states its own effect.)
   */
  lemma LoadedAfter(s: State, w: World)
    ensures IsLoaded(Load(s, w).state) <==> Load(s, w).outcome.Success?
    ensures !IsLoaded(Unload(s).state)
    ensures IsLoaded(Save(s, w).state) <==> IsLoaded(s)
    ensures IsLoaded(s) ==> IsLoaded(Load(s, w).state) && Load(s, w).events == []
  {
  }

  /** `unload()`: drops the envelope from memory; the store is not touched. */
  function Unload(s: State): (r: Step<()>)
    ensures !IsLoaded(r.state) && r.outcome.Success? && r.events == []
  {
    Step(None, Success(()), [])
  }

  /** The `components` getter: a copy of the loaded directory; reading it with nothing loaded throws. */
  function ComponentsView(s: State): (r: Result<ComponentsDirectory, ManagerError>)
    ensures r.Success? <==> IsLoaded(s)
    ensures r.Success? ==> r.value == s.value.components
  {
    if s.None? then Failure(NotLoaded) else Success(s.value.components)
  }

  /** The `clusters` getter: a copy of the loaded registry; reading it with nothing loaded throws. */
  function ClustersView(s: State): (r: Result<ClusterRegistry, ManagerError>)
    ensures r.Success? <==> IsLoaded(s)
    ensures r.Success? ==> r.value == s.value.clusters
  {
    if s.None? then Failure(NotLoaded) else Success(s.value.clusters)
  }

  /* ---------- save / replaceConfigMap ---------- */

  /** `clusterRefs.get(ref)`: `None` for `undefined`. */
  function ContextOf(lc: LocalConfig, clusterRef: string): Option<string>
  {
    if clusterRef in lc.clusterRefs then Some(lc.clusterRefs[clusterRef]) else None
  }

  /** The contexts `replaceConfigMap` writes to: one per cluster of the deployment in local config, in list order. */
  function DeploymentContexts(w: World): (r: Result<seq<Option<string>>, ManagerError>)
    ensures w.deploymentFlag.None? || w.deploymentFlag == Some("") ==> r == Failure(DeploymentNotSet)
    ensures r.Success? <==>
      && w.deploymentFlag.Some? && w.deploymentFlag.value != ""
      && w.deploymentFlag.value in w.localConfig.deployments
      && w.localConfig.deployments[w.deploymentFlag.value].clusters.Some?
    ensures r.Success? ==>
      && w.deploymentFlag.Some? && w.deploymentFlag.value in w.localConfig.deployments
      && var refs := w.localConfig.deployments[w.deploymentFlag.value].clusters;
         refs.Some? && |r.value| == |refs.value|
         && forall i :: 0 <= i < |refs.value| ==> r.value[i] == ContextOf(w.localConfig, refs.value[i])
  {
    if w.deploymentFlag.None? || w.deploymentFlag.value == "" then Failure(DeploymentNotSet)
    else
      var name := w.deploymentFlag.value;
      if name !in w.localConfig.deployments then Failure(DeploymentNotInLocalConfig(name))
      else
        match w.localConfig.deployments[name].clusters
        case None => Failure(ClusterRefsMissing(name))
        case Some(refs) => Success(seq(|refs|, i requires 0 <= i < |refs| => ContextOf(w.localConfig, refs[i])))
  }

  /** One replace per context, in list order, each carrying the whole envelope. */
  function FanOut(namespace: string, contexts: seq<Option<string>>, env: Envelope): (events: seq<Event>)
    ensures |events| == |contexts|
    ensures forall i :: 0 <= i < |contexts| ==> events[i] == ReplaceConfigMap(namespace, contexts[i], env)
  {
    if |contexts| == 0 then []
    else FanOut(namespace, contexts[..|contexts| - 1], env) + [ReplaceConfigMap(namespace, contexts[|contexts| - 1], env)]
  }

  /**
   * `save()` with `replaceConfigMap()`. All replaces are issued together
   * (`Promise.all`); the save fails when any of them rejects, and the
   * others are not rolled back.
   */
  function Save(s: State, w: World): (r: Step<()>)
    ensures r.state == s
    ensures s.None? ==> r.outcome == Failure(SaveWithoutData) && r.events == []
    ensures s.Some? && DeploymentContexts(w).Failure? ==>
      r.outcome == Failure(DeploymentContexts(w).error) && r.events == []
    ensures s.Some? && DeploymentContexts(w).Success? ==>
      var contexts := DeploymentContexts(w).value;
      && |r.events| == |contexts|
      && (forall i :: 0 <= i < |contexts| ==> r.events[i] == ReplaceConfigMap(w.namespace, contexts[i], s.value))
      && (r.outcome.Success? <==> forall i :: 0 <= i < |contexts| ==> contexts[i] !in w.rejectedWrites)
    ensures s.Some? && DeploymentContexts(w).Success? && r.outcome.Failure? ==> r.outcome.error == WriteRejected
  {
    if s.None? then Step(s, Failure(SaveWithoutData), [])
    else
      match DeploymentContexts(w)
      case Failure(e) => Step(s, Failure(e), [])
      case Success(contexts) =>
        var failed := exists i :: 0 <= i < |contexts| && contexts[i] in w.rejectedWrites;
        Step(s, if failed then Failure(WriteRejected) else Success(()), FanOut(w.namespace, contexts, s.value))
  }

  /** A deployment with an empty cluster list saves successfully while writing nothing. */
  lemma SaveToNoClustersWritesNothing(s: State, w: World)
    requires s.Some? && w.deploymentFlag.Some? && w.deploymentFlag.value != ""
    requires w.deploymentFlag.value in w.localConfig.deployments
    requires w.localConfig.deployments[w.deploymentFlag.value].clusters == Some([])
    ensures Save(s, w).outcome.Success? && Save(s, w).events == []
  {
  }

  /* ---------- modify / deleteComponents ---------- */

  /**
   * `modify(callback)`: throws before doing anything when nothing is loaded;
   * otherwise calls the callback once on the loaded envelope and then saves,
   * whether or not the callback changed anything. A callback that throws
   * leaves its partial changes in memory and nothing is saved.
   */
  function Modify(s: State, callback: Envelope -> CallbackResult, w: World): (r: Step<()>)
    ensures s.None? ==> r == Step(s, Failure(ModifyWithoutLoading), [])
    ensures s.Some? ==> |r.events| >= 1 && r.events[0] == CallbackInvoked && CountCallbacks(r.events) == 1
    ensures s.Some? ==> r.state == Some(callback(s.value).after)
    ensures s.Some? && callback(s.value).thrown.None? ==>
      r.events == [CallbackInvoked] + Save(Some(callback(s.value).after), w).events
      && r.outcome == Save(Some(callback(s.value).after), w).outcome
    ensures s.Some? && callback(s.value).thrown.Some? ==>
      r.events == [CallbackInvoked] && r.outcome == Failure(CallbackThrew(callback(s.value).thrown.value))
  {
    if s.None? then Step(s, Failure(ModifyWithoutLoading), [])
    else
      var result := callback(s.value);
      if result.thrown.Some? then Step(Some(result.after), Failure(CallbackThrew(result.thrown.value)), [CallbackInvoked])
      else
        var saved := Save(Some(result.after), w);
        assert CountCallbacks([CallbackInvoked] + saved.events) == 1 by {
          CountCallbacksAppend([CallbackInvoked], saved.events);
          assert [CallbackInvoked][..0] == [];
        }
        Step(saved.state, saved.outcome, [CallbackInvoked] + saved.events)
  }

  /** A callback that changes nothing still costs a full save. */
  lemma ModifyWithNoChangeStillSaves(s: State, w: World)
    requires s.Some? && DeploymentContexts(w).Success? && |DeploymentContexts(w).value| > 0
    ensures var r := Modify(s, (e: Envelope) => CallbackResult(e, None), w);
      r.state == s && |r.events| == 1 + |DeploymentContexts(w).value|
      && r.events[1] == ReplaceConfigMap(w.namespace, DeploymentContexts(w).value[0], s.value)
  {
  }

  /** The callback `deleteComponents` passes to `modify`. */
  function EmptyComponents(e: Envelope): CallbackResult
  {
    CallbackResult(e.(components := InitializeEmpty()), None)
  }

  /** `deleteComponents()`: empties the components directory and saves; nothing else in the envelope changes. */
  function DeleteComponents(s: State, w: World): (r: Step<()>)
    ensures s.None? ==> r.outcome == Failure(ModifyWithoutLoading) && r.events == []
    ensures s.Some? ==> r.state == Some(s.value.(components := ComponentsDirectory([], [], [])))
    ensures s.Some? ==> forall i :: 1 <= i < |r.events| ==> r.events[i].ReplaceConfigMap? && r.events[i].document == r.state.value
    ensures s.Some? ==> r.events == [CallbackInvoked] + Save(r.state, w).events && r.outcome == Save(r.state, w).outcome
  {
    Modify(s, EmptyComponents, w)
  }

  /* ---------- load / get ---------- */

  /**
   * `load()`: nothing happens when an envelope is already loaded; otherwise
   * one read, and any read or parse failure is rethrown as
   * "Failed to load remote config from cluster" with the cause attached.
   */
  function Load(s: State, w: World): (r: Step<()>)
    ensures s.Some? ==> r == Step(s, Success(()), [])
    ensures s.None? ==> r.events == [ReadConfigMap(w.namespace, w.readContext)]
    ensures s.None? && w.read.Found? ==> r.state == Some(w.read.document) && r.outcome.Success?
    ensures s.None? && w.read.ReadFailed? ==> r.state == None && r.outcome == Failure(LoadFailed(w.read.failure))
    ensures r.outcome.Success? <==> IsLoaded(r.state)
  {
    if s.Some? then Step(s, Success(()), [])
    else
      var read := ReadConfigMap(w.namespace, w.readContext);
      match w.read
      case Found(document) => Step(Some(document), Success(()), [read])
      case ReadFailed(failure) => Step(None, Failure(LoadFailed(failure)), [read])
  }

  /** A second `load` never reads the store again. */
  lemma LoadIsIdempotent(s: State, w1: World, w2: World)
    requires Load(s, w1).outcome.Success?
    ensures Load(Load(s, w1).state, w2) == Step(Load(s, w1).state, Success(()), [])
  {
  }

  /**
   * `get()`: load if needed, then validate with `skipConsensusNodesValidation`
   * set to `false`, so the consensus-node checks run too; a failed
   * validation is fatal, and a failed load propagates unchanged.
   */
  function Get(s: State, w: World): (r: Step<Envelope>)
    ensures r.state == Load(s, w).state && r.events == Load(s, w).events
    ensures r.outcome.Success? ==> r.state == Some(r.outcome.value) && w.validator(r.outcome.value.components, false)
    ensures Load(s, w).outcome.Failure? ==> r.outcome == Failure(Load(s, w).outcome.error)
    ensures Load(s, w).outcome.Success? && !w.validator(Load(s, w).state.value.components, false) ==>
      r.outcome == Failure(RemoteConfigInvalid)
    ensures Load(s, w).outcome.Success? && w.validator(Load(s, w).state.value.components, false) ==>
      r.outcome == Success(Load(s, w).state.value)
    ensures r.events == [] || r.events == [ReadConfigMap(w.namespace, w.readContext)]
  {
    var loaded := Load(s, w);
    if loaded.outcome.Failure? then Step(loaded.state, Failure(loaded.outcome.error), loaded.events)
    else if !w.validator(loaded.state.value.components, false) then Step(loaded.state, Failure(RemoteConfigInvalid), loaded.events)
    else Step(loaded.state, Success(loaded.state.value), loaded.events)
  }

  /* ---------- create ---------- */

  /**
   * The envelope `create` builds, or the error the consensus-node
   * constructor throws while `initializeWithNodes` builds its components.
   */
  function NewEnvelope(argv: Argv, state: string, nodeAliases: seq<string>, namespace: string, deployment: string,
                       clusterRef: string, dnsBaseDomain: string, dnsConsensusNodePattern: string, w: World): (r: Result<Envelope, ManagerError>)
    ensures r.Success? <==> InitialNodesValid(nodeAliases, clusterRef, namespace, w.initialNodeState)
    ensures r.Failure? ==> r.error == InitialNodeRejected(FirstNodeError(nodeAliases, clusterRef, namespace, w.initialNodeState))
    ensures r.Success? ==>
      && ClusterKeys(r.value.clusters) == [clusterRef]
      && LookupCluster(r.value.clusters, clusterRef) == Some(Cluster(clusterRef, namespace, deployment, dnsBaseDomain, dnsConsensusNodePattern))
      && r.value.commandHistory == [CurrentCommand(argv)] && r.value.lastExecutedCommand == CurrentCommand(argv)
      && r.value.components == InitializeWithNodes(nodeAliases, clusterRef, namespace, w.initialNodeState).value
      && r.value.metadata.namespace == namespace && r.value.metadata.deploymentName == deployment
      && r.value.metadata.lastUpdatedBy == w.userName && r.value.metadata.soloVersion == w.soloVersion
      && r.value.flags == w.initialFlags(argv)
  {
    match InitializeWithNodes(nodeAliases, clusterRef, namespace, w.initialNodeState)
    case Failure(e) => Failure(InitialNodeRejected(e))
    case Success(components) =>
      var currentCommand := CurrentCommand(argv);
      Success(Envelope(
        Metadata(namespace, deployment, state, w.now, w.userName, w.soloVersion, None, None, None, None, None),
        [(clusterRef, Cluster(clusterRef, namespace, deployment, dnsBaseDomain, dnsConsensusNodePattern))],
        components,
        [currentCommand],
        currentCommand,
        w.initialFlags(argv)))
  }

  /**
   * `create(...)`: builds the new envelope, holds it, then writes it once,
   * with a create, to the given context. The envelope stays loaded even
   * when the create is rejected. The ConfigMap goes to the namespace
   * `getNamespace()` resolves, not to the `namespace` argument. When a
   * consensus node fails its constructor's validation, `create` throws
   * before it assigns the envelope, so nothing is held and nothing written.
   */
  function Create(s: State, argv: Argv, state: string, nodeAliases: seq<string>, namespace: string, deployment: string,
                  clusterRef: string, context: string, dnsBaseDomain: string, dnsConsensusNodePattern: string, w: World): (r: Step<()>)
    ensures !InitialNodesValid(nodeAliases, clusterRef, namespace, w.initialNodeState) ==>
      && r.state == s && r.events == []
      && r.outcome == Failure(InitialNodeRejected(FirstNodeError(nodeAliases, clusterRef, namespace, w.initialNodeState)))
    ensures InitialNodesValid(nodeAliases, clusterRef, namespace, w.initialNodeState) ==>
      && r.state == Some(NewEnvelope(argv, state, nodeAliases, namespace, deployment, clusterRef, dnsBaseDomain, dnsConsensusNodePattern, w).value)
      && ClusterKeys(r.state.value.clusters) == [clusterRef]
      && r.state.value.commandHistory == [Join(argv.positional, " ")]
      && r.state.value.lastExecutedCommand == Join(argv.positional, " ")
      && r.events == [CreateConfigMap(w.namespace, Some(context), r.state.value)]
    ensures r.outcome.Success? <==>
      InitialNodesValid(nodeAliases, clusterRef, namespace, w.initialNodeState) && Some(context) !in w.rejectedWrites
  {
    match NewEnvelope(argv, state, nodeAliases, namespace, deployment, clusterRef, dnsBaseDomain, dnsConsensusNodePattern, w)
    case Failure(e) => Step(s, Failure(e), [])
    case Success(env) =>
      Step(Some(env),
           if Some(context) in w.rejectedWrites then Failure(WriteRejected) else Success(()),
           [CreateConfigMap(w.namespace, Some(context), env)])
  }

  /**
   * After a `create` whose nodes are valid, `get` does not read the store
   * again and returns the created envelope, whose cluster registry has
   * exactly the one key.
   */
  lemma CreateThenGet(s: State, argv: Argv, state: string, nodeAliases: seq<string>, namespace: string, deployment: string,
                      clusterRef: string, context: string, dnsBaseDomain: string, dnsConsensusNodePattern: string, w: World)
    ensures var created := Create(s, argv, state, nodeAliases, namespace, deployment, clusterRef, context,
                                  dnsBaseDomain, dnsConsensusNodePattern, w).state;
      var got := Get(created, w);
      InitialNodesValid(nodeAliases, clusterRef, namespace, w.initialNodeState) ==>
        && got.events == []
        && (w.validator(created.value.components, false) ==> got.outcome == Success(created.value))
        && (got.outcome.Success? ==> ClusterKeys(got.outcome.value.clusters) == [clusterRef])
  {
  }

  /** The consensus nodes of a created deployment have ids 0..n-1 in alias order, all on the one cluster. */
  lemma CreateAssignsSequentialIds(s: State, argv: Argv, state: string, nodeAliases: seq<string>, namespace: string, deployment: string,
                                   clusterRef: string, context: string, dnsBaseDomain: string, dnsConsensusNodePattern: string, w: World)
    requires InitialNodesValid(nodeAliases, clusterRef, namespace, w.initialNodeState)
    ensures var env := Create(s, argv, state, nodeAliases, namespace, deployment, clusterRef, context, dnsBaseDomain, dnsConsensusNodePattern, w).state.value;
      && |env.components.consensusNodes| == |nodeAliases|
      && forall i :: 0 <= i < |nodeAliases| ==>
           env.components.consensusNodes[i].nodeId == JsNumber(i)
           && env.components.consensusNodes[i].base == Base(nodeAliases[i], clusterRef, namespace)
  {
  }

  /**
   * A `create` with an empty node alias throws before anything is held or
   * written: the previous state survives and the store sees no event.
   */
  lemma CreateRejectsEmptyAlias(s: State, argv: Argv, state: string, nodeAliases: seq<string>, namespace: string, deployment: string,
                                clusterRef: string, context: string, dnsBaseDomain: string, dnsConsensusNodePattern: string, w: World, k: nat)
    requires k < |nodeAliases| && nodeAliases[k] == ""
    ensures var r := Create(s, argv, state, nodeAliases, namespace, deployment, clusterRef, context, dnsBaseDomain, dnsConsensusNodePattern, w);
      r.state == s && r.events == [] && r.outcome.Failure? && r.outcome.error.InitialNodeRejected?
  {
  }

  /* ---------- loadAndValidate ---------- */

  /** The envelope `loadAndValidate` saves after a successful validation. */
  function Audited(env: Envelope, argv: Argv, w: World): (r: Envelope)
    ensures r.commandHistory == env.commandHistory + [HistoryEntry(w.userName, argv)]
    ensures r.lastExecutedCommand == HistoryEntry(w.userName, argv)
    ensures r.metadata == PopulateVersionsInMetadata(env.metadata, argv, w.defaults)
    ensures r.clusters == env.clusters && r.components == env.components
    ensures r.flags == w.handleFlags(env.flags, argv)
  {
    var withHistory := AddCommandToHistory(env, HistoryEntry(w.userName, argv));
    var withVersions := withHistory.(metadata := PopulateVersionsInMetadata(withHistory.metadata, argv, w.defaults));
    withVersions.(flags := w.handleFlags(withVersions.flags, argv))
  }

  /**
   * `loadAndValidate(argv, validate, skipConsensusNodesValidation)`: load;
   * stop there when `validate` is false; otherwise validate, append one
   * audit line to the history, record versions and flags, and save.
   */
  function LoadAndValidate(s: State, argv: Argv, validate: bool, skipConsensusNodesValidation: bool, w: World): (r: Step<()>)
    ensures Load(s, w).outcome.Failure? ==> r == Load(s, w)
    ensures !validate ==> r == Load(s, w)
    ensures validate && Load(s, w).outcome.Success? ==>
      var loaded := Load(s, w).state.value;
      if !w.validator(loaded.components, skipConsensusNodesValidation) then
        r.outcome == Failure(ComponentsInvalid) && r.state == Some(loaded) && r.events == Load(s, w).events
      else
        && r.state == Some(Audited(loaded, argv, w))
        && r.state.value.commandHistory == loaded.commandHistory + [HistoryEntry(w.userName, argv)]
        && r.events == Load(s, w).events + Save(r.state, w).events
        && r.outcome == Save(r.state, w).outcome
  {
    var loaded := Load(s, w);
    if loaded.outcome.Failure? || !validate then loaded
    else
      var env := loaded.state.value;
      if !w.validator(env.components, skipConsensusNodesValidation) then
        Step(loaded.state, Failure(ComponentsInvalid), loaded.events)
      else
        var saved := Save(Some(Audited(env, argv, w)), w);
        Step(saved.state, saved.outcome, loaded.events + saved.events)
  }

  /** Without validation, `loadAndValidate` never writes and leaves the history as loaded. */
  lemma LoadWithoutValidationNeverWrites(s: State, argv: Argv, skip: bool, w: World)
    ensures var r := LoadAndValidate(s, argv, false, skip, w);
      && (forall i :: 0 <= i < |r.events| ==> !IsWrite(r.events[i]))
      && (r.state.Some? ==> r.state.value.commandHistory == (if s.Some? then s.value else w.read.document).commandHistory)
  {
  }

  /* ---------- getConsensusNodes / getContexts / getClusterRefs ---------- */

  /** The `ConsensusNode` model object `getConsensusNodes` builds for one component. */
  datatype ConsensusNode = ConsensusNode(
    name: string,
    nodeId: JsValue,
    namespace: string,
    cluster: string,
    context: Option<string>,
    dnsBaseDomain: string,
    dnsConsensusNodePattern: string,
    fullyQualifiedDomainName: string)

  /** `node.nodeId`, `undefined` on an entry that is not a consensus node. */
  function NodeIdOf(c: Component): JsValue
  {
    if c.ConsensusNodeComponent? then c.nodeId else JsUndefined
  }

  /** Joins each node with its cluster entry and context; a node whose cluster is not registered throws. */
  function JoinNodes(nodes: seq<Component>, clusters: ClusterRegistry, lc: LocalConfig, fqdn: DomainNameRenderer): (r: Result<seq<ConsensusNode>, ManagerError>)
    ensures r.Success? <==> forall i :: 0 <= i < |nodes| ==> nodes[i].base.cluster in ClusterKeys(clusters)
    ensures r.Success? ==> |r.value| == |nodes| && forall i :: 0 <= i < |nodes| ==>
      var n := nodes[i];
      var c := LookupCluster(clusters, n.base.cluster).value;
      r.value[i] == ConsensusNode(n.base.name, NodeIdOf(n), n.base.namespace, n.base.cluster, ContextOf(lc, n.base.cluster),
                                  c.dnsBaseDomain, c.dnsConsensusNodePattern,
                                  fqdn(n.base.name, NodeIdOf(n), n.base.namespace, n.base.cluster, c.dnsBaseDomain, c.dnsConsensusNodePattern))
  {
    if |nodes| == 0 then Success([])
    else
      var prefix :- JoinNodes(nodes[..|nodes| - 1], clusters, lc, fqdn);
      var n := nodes[|nodes| - 1];
      match LookupCluster(clusters, n.base.cluster)
      case None => Failure(ClusterNotRegistered(n.base.cluster))
      case Some(c) =>
        Success(prefix + [ConsensusNode(n.base.name, NodeIdOf(n), n.base.namespace, n.base.cluster, ContextOf(lc, n.base.cluster),
                                        c.dnsBaseDomain, c.dnsConsensusNodePattern,
                                        fqdn(n.base.name, NodeIdOf(n), n.base.namespace, n.base.cluster, c.dnsBaseDomain, c.dnsConsensusNodePattern))])
  }

  /** `getConsensusNodes()`: one entry per consensus-node component, in directory order; throws when nothing is loaded. */
  function GetConsensusNodes(s: State, lc: LocalConfig, fqdn: DomainNameRenderer): (r: Result<seq<ConsensusNode>, ManagerError>)
    ensures !IsLoaded(s) ==> r == Failure(NotLoaded)
    ensures r.Success? ==>
      && |r.value| == |s.value.components.consensusNodes|
      && forall i :: 0 <= i < |r.value| ==>
           && r.value[i].name == s.value.components.consensusNodes[i].base.name
           && r.value[i].cluster == s.value.components.consensusNodes[i].base.cluster
           && r.value[i].context == ContextOf(lc, r.value[i].cluster)
           && r.value[i].nodeId == NodeIdOf(s.value.components.consensusNodes[i])
           && r.value[i].namespace == s.value.components.consensusNodes[i].base.namespace
    ensures r.Success? ==> forall i :: 0 <= i < |r.value| ==>
      && LookupCluster(s.value.clusters, r.value[i].cluster).Some?
      && var c := LookupCluster(s.value.clusters, r.value[i].cluster).value;
      && r.value[i].dnsBaseDomain == c.dnsBaseDomain
      && r.value[i].dnsConsensusNodePattern == c.dnsConsensusNodePattern
      && r.value[i].fullyQualifiedDomainName
         == fqdn(r.value[i].name, r.value[i].nodeId, r.value[i].namespace, r.value[i].cluster,
                 c.dnsBaseDomain, c.dnsConsensusNodePattern)
    ensures IsLoaded(s) ==> (r.Success? <==>
      forall i :: 0 <= i < |s.value.components.consensusNodes| ==>
        s.value.components.consensusNodes[i].base.cluster in ClusterKeys(s.value.clusters))
  {
    if s.None? then Failure(NotLoaded)
    else JoinNodes(s.value.components.consensusNodes, s.value.clusters, lc, fqdn)
  }

  /** After `unload`, the node views are unavailable until the next load. */
  lemma UnloadThenNoNodes(s: State, lc: LocalConfig, fqdn: DomainNameRenderer)
    ensures !IsLoaded(Unload(s).state)
    ensures GetConsensusNodes(Unload(s).state, lc, fqdn) == Failure(NotLoaded)
  {
  }

  function Contexts(nodes: seq<ConsensusNode>): (cs: seq<Option<string>>)
    ensures |cs| == |nodes| && forall i :: 0 <= i < |nodes| ==> cs[i] == nodes[i].context
  {
    seq(|nodes|, i requires 0 <= i < |nodes| => nodes[i].context)
  }

  /** Position of the first occurrence of `x` in `xs`. */
  function FirstIndex<T(==)>(xs: seq<T>, x: T): (k: nat)
    requires x in xs
    ensures k < |xs| && xs[k] == x && x !in xs[..k]
  {
    if xs[0] == x then 0 else 1 + FirstIndex(xs[1..], x)
  }

  lemma FirstIndexInPrefix<T>(xs: seq<T>, n: nat, x: T)
    requires n <= |xs| && x in xs[..n]
    ensures FirstIndex(xs, x) == FirstIndex(xs[..n], x)
  {
    var k := FirstIndex(xs[..n], x);
    var j := FirstIndex(xs, x);
    assert xs[..n][..k] == xs[..k];
  }

  /** `[...new Set(xs)]`: the distinct elements, each once, in order of first occurrence. */
  function Distinct<T(==, !new)>(xs: seq<T>): (r: seq<T>)
    ensures forall i, j :: 0 <= i < j < |r| ==> r[i] != r[j]
    ensures forall x :: x in r <==> x in xs
    ensures forall i, j :: 0 <= i < j < |r| ==> FirstIndex(xs, r[i]) < FirstIndex(xs, r[j])
  {
    if |xs| == 0 then []
    else
      var prefix := xs[..|xs| - 1];
      var last := xs[|xs| - 1];
      var d := Distinct(prefix);
      assert xs == prefix + [last];
      forall x | x in d
        ensures FirstIndex(xs, x) == FirstIndex(prefix, x)
      {
        FirstIndexInPrefix(xs, |xs| - 1, x);
      }
      if last in d then d
      else
        assert FirstIndex(xs, last) == |xs| - 1;
        d + [last]
  }

  /** `getContexts()`: the distinct contexts of the consensus nodes, in order of first appearance. */
  function GetContexts(s: State, lc: LocalConfig, fqdn: DomainNameRenderer): (r: Result<seq<Option<string>>, ManagerError>)
    ensures r.Success? <==> GetConsensusNodes(s, lc, fqdn).Success?
    ensures r.Success? ==>
      var nodes := GetConsensusNodes(s, lc, fqdn).value;
      && (forall i, j :: 0 <= i < j < |r.value| ==> r.value[i] != r.value[j])
      && (forall c :: c in r.value <==> exists i :: 0 <= i < |nodes| && nodes[i].context == c)
    ensures r.Success? ==>
      var cs := Contexts(GetConsensusNodes(s, lc, fqdn).value);
      && r.value == Distinct(cs)
      && forall i, j :: 0 <= i < j < |r.value| ==> r.value[i] in cs && r.value[j] in cs && FirstIndex(cs, r.value[i]) < FirstIndex(cs, r.value[j])
  {
    var nodes :- GetConsensusNodes(s, lc, fqdn);
    var cs := Contexts(nodes);
    var r := Distinct(cs);
    assert forall c :: c in cs <==> exists i :: 0 <= i < |nodes| && nodes[i].context == c by {
      forall c | c in cs ensures exists i :: 0 <= i < |nodes| && nodes[i].context == c {
        var i :| 0 <= i < |cs| && cs[i] == c;
      }
    }
    Success(r)
  }

  /** The clusters the nodes sit on. */
  function NodeClusters(nodes: seq<ConsensusNode>): set<string>
  {
    set i | 0 <= i < |nodes| :: nodes[i].cluster
  }

  /** The `Map.set` loop of `getClusterRefs`: a later node overwrites an earlier one of the same cluster. */
  function ClusterContextMap(nodes: seq<ConsensusNode>): (m: map<string, Option<string>>)
    ensures m.Keys == NodeClusters(nodes)
    ensures forall k :: k in m ==> exists i :: LastWith(nodes, k, i) && m[k] == nodes[i].context
  {
    if |nodes| == 0 then map[]
    else
      var prefix := nodes[..|nodes| - 1];
      var last := nodes[|nodes| - 1];
      var m := ClusterContextMap(prefix);
      var r := m[last.cluster := last.context];
      assert LastWith(nodes, last.cluster, |nodes| - 1);
      forall k | k in r && k != last.cluster
        ensures exists i :: LastWith(nodes, k, i) && r[k] == nodes[i].context
      {
        var i :| LastWith(prefix, k, i) && m[k] == prefix[i].context;
        LastWithExtends(nodes, k, i);
      }
      assert NodeClusters(nodes) == NodeClusters(prefix) + {last.cluster} by {
        forall k | k in NodeClusters(nodes) ensures k in NodeClusters(prefix) + {last.cluster} {
          var i :| 0 <= i < |nodes| && nodes[i].cluster == k;
          if i < |nodes| - 1 {
            assert prefix[i].cluster == k;
          }
        }
        forall k | k in NodeClusters(prefix) ensures k in NodeClusters(nodes) {
          var i :| 0 <= i < |prefix| && prefix[i].cluster == k;
          assert nodes[i].cluster == k;
        }
      }
      r
  }

  /** Node `i` is the last one of cluster `k`. */
  predicate LastWith(nodes: seq<ConsensusNode>, k: string, i: int)
  {
    0 <= i < |nodes| && nodes[i].cluster == k && forall j :: i < j < |nodes| ==> nodes[j].cluster != k
  }

  lemma LastWithExtends(nodes: seq<ConsensusNode>, k: string, i: int)
    requires |nodes| > 0 && LastWith(nodes[..|nodes| - 1], k, i) && nodes[|nodes| - 1].cluster != k
    ensures LastWith(nodes, k, i)
  {
    var prefix := nodes[..|nodes| - 1];
    forall j | i < j < |nodes|
      ensures nodes[j].cluster != k
    {
      if j < |prefix| {
        assert nodes[j] == prefix[j];
      }
    }
  }

  /** `getClusterRefs()`: each cluster that hosts a consensus node, mapped to its context in local config. */
  function GetClusterRefs(s: State, lc: LocalConfig, fqdn: DomainNameRenderer): (r: Result<map<string, Option<string>>, ManagerError>)
    ensures r.Success? <==> GetConsensusNodes(s, lc, fqdn).Success?
    ensures r.Success? ==>
      && r.value.Keys == (set i | 0 <= i < |s.value.components.consensusNodes| :: s.value.components.consensusNodes[i].base.cluster)
      && (forall k :: k in r.value ==> r.value[k] == ContextOf(lc, k))
  {
    var nodes :- GetConsensusNodes(s, lc, fqdn);
    Success(ClusterContextMap(nodes))
  }
}

=== FILE: wrappers.dfy ===
/** Failure-compatible result types shared by every module of the model. */
module Wrappers {

  /** A value that may be absent: JavaScript's `undefined`/`null` for an optional field. */
  datatype Option<+T> = None | Some(value: T)

  /** The outcome of an operation that produces a value or throws a domain error. */
  datatype Result<+R, +E> = Success(value: R) | Failure(error: E) {
    predicate IsFailure() { Failure? }

    function PropagateFailure<U>(): Result<U, E>
      requires Failure?
    {
      Failure(error)
    }

    function Extract(): R
      requires Success?
    {
      value
    }
  }

  /** The outcome of an operation that produces nothing but may throw. */
  datatype Outcome<+E> = Pass | Fail(error: E)
}
